=== FILE: README.md ===
# smart-fin-tools: a verified model of the calculators and editor core

smart-fin-tools is a browser toolkit of personal-finance calculators. It has
GST, SIP (systematic investment plan), lumpsum and EMI (equated monthly
instalment of a loan) calculators, plus a notes editor and a basic keypad
calculator. This project models the parts of it that decide numbers and
text. The browser glue around them is left out.

- **Numeric input policies.** The hard clamp applied on blur
  (`validateNumberInput`) and the lenient clamp applied while typing
  (`clampInputIfOutOfRange`). Both live in `js/utils/formatters.js`.
- **Amount slider mapping.** A 0..1000 amount slider maps to an amount and
  back (`amountFromSliderPos`, `sliderPosFromAmount`):
  - the first 21 ticks form a ladder of 1, 500, 1000, …, 10000;
  - above that the mapping is exponential;
  - slider amounts are snapped by `roundNiceAmount`.
- **Compact Indian number format.** `formatIndianCompact` picks its unit
  (Thousand, Lakh, Crore, … Shankh). `formatCurrencyOrInfinity` shows '∞'
  for non-finite values.
- **The four calculate functions.** Each is lifted into a pure function of
  its inputs:
  - GST add/remove and the Add/Remove toggle;
  - SIP annuity-due future value;
  - lumpsum yearly compounding;
  - the EMI annuity formula.

  Each comes with its input bounds, its live and blur handlers, and the
  chart data it hands to the chart layer.
- **The notes editor** (`js/editorCalc.js`). Tag stripping on load, CR LF →
  LF normalisation on save and download, and the clear action.
- **The keypad calculator** (`js/editorCalc.js`). Caret clamping,
  splice-insert, backspace, the ANS guard, operator display, the click and
  caret-navigation handlers, and the `sanitize` whitelist.

## Model conventions

- Every number is an exact `real`. A text field is seen through its
  `parseFloat` value, as `Option<real>`, with None standing for NaN.
- Whatever a handler writes back into a field or a slider is returned
  explicitly.
- Periods and tenures are whole years (`nat`), and powers are recursive
  (`Numeric.Pow`).
- Each closed-form formula is proved equal to an independent step-by-step
  definition:
  - the SIP balance month by month (`ContributionValue`);
  - the lumpsum balance year by year (`Balance`);
  - the outstanding loan balance month by month (`Outstanding`).

  These are reference definitions and are not part of the program.
- The browser's DOM state for the keypad display is explicit: value,
  selection, focus and disabled flag. Assigning a new value puts the cursor
  at its end, as section 4.10.5.4 of the HTML standard prescribes.
- Parameters stand for what cannot be modelled:
  - `Math.pow` with a real exponent and `Math.log` (exponential slider zone);
  - `fitsValue` (a DOM width measurement);
  - the expression evaluator;
  - the `N%` rewrite in `sanitize`.
- The keypad's click handler is modelled twice. `ClickAsWritten` is the
  handler as written, and `Click` is the corrected handler of the Findings
  table. The lemmas about runs of clicks are stated of the corrected click.
  When a pressed button takes focus from the display before its handler
  runs, the handler as written gives the same result
  (`BlurredClickIsClick`, `ClicksAsWrittenAgree`). That is what a mouse
  click on a button does in a browser, since the keypad does not keep focus
  on the display.

- The EMI calculator computes only the annuity formula and a single 'Total'
  bar; it has no amortisation schedule. The GST calculator also charts a
  single 'Total' bar.
- The SIP and lumpsum calculators chart `max(1, round(period))` yearly
  points.

## Model

| member | source | states |
|---|---|---|
| Formatters.OrZero | js/calculators/gst-calculator.js:70-71 | A field that does not parse reads as 0; a parsed field reads as its number. |
| Formatters.ClampReal | js/utils/formatters.js:84-86 | With min ≤ max the clamped value lies in [min, max] and is the point of that interval nearest the input; with crossed bounds max wins. |
| Formatters.ValidateNumberInput | js/utils/formatters.js:82-89 | The value the blur handler leaves in the field: always in [min, max]; min for unparseable text; an in-range number is kept; otherwise the clamp of the typed number. |
| Formatters.LiveClampValue | js/utils/formatters.js:96-98 | Both tests look at the typed value, the upper one last: the value is kept exactly when it lies in [min, max]; above max gives max; below min and not above max gives min; for ordered bounds this is the hard clamp. |
| Formatters.ClampInputIfOutOfRange | js/utils/formatters.js:92-101 | null exactly when the text does not parse, and then the field is untouched; otherwise the clamped value in the source's test order, which for ordered bounds is the hard clamp, written back exactly when the typed value lies outside [min, max], so the field then holds the returned value. |
| Formatters.CrossedBoundsDisagree | js/utils/formatters.js:82-101 | With crossed bounds (min 10, max 5) the two policies part ways: typing 3 leaves 10 while typing, and the hard clamp gives 5. |
| Formatters.BlurAgreesWithLiveClamp | js/utils/formatters.js:82-101 | For ordered bounds (min ≤ max), a blur after a live clamp agrees with the live clamp on every parseable input; on blank input it gives min. |
| Formatters.AmountFromSliderPos | js/utils/formatters.js:109-119 | For a clamped position in the ladder zone (≤ 20), the amount is max(max(1, minAmount), EARLY[round(p)]) for an index in 0..20, so it is ≥ 1 and ≥ minAmount. |
| Formatters.LadderMonotone | js/utils/formatters.js:110-118 | Across the ladder zone, moving the slider right never lowers the amount. |
| Formatters.ScanLadder | js/utils/formatters.js:136-139 | The ladder loop returns the greatest index whose step the amount reaches (0 when it reaches none). |
| Formatters.SliderPosFromAmount | js/utils/formatters.js:128-148 | Every position returned lies in [0, 1000]; for a clamped amount up to the top of the ladder it is the greatest ladder index the amount reaches. |
| Formatters.LadderRoundTrip | js/utils/formatters.js:109-142 | With minAmount ≤ 1 and maxAmount ≥ 10000, tick → amount → tick gives back every tick 0..20. |
| Formatters.LadderWithinOneStep | js/utils/formatters.js:109-142 | Amount → tick → amount lands at or below the clamped amount, and the next tick's amount is above it: within one ladder step. |
| Formatters.RoundTo | js/utils/formatters.js:155 | `Math.round(n / s) * s` is a whole multiple of s within half a step of n, halves rounding up. |
| Formatters.RoundNiceAmount | js/utils/formatters.js:152-162 | 1 below 500; otherwise a whole multiple of the band's step (500 … 500000) within half a step of the input. |
| Formatters.RoundNiceIdempotent | js/utils/formatters.js:152-162 | Rounding an already rounded amount changes nothing, even when the first rounding carried it up into the next band. |
| Formatters.FormatCurrencyOrInfinity | js/utils/formatters.js:12-17 | '∞' exactly for a non-finite value; otherwise the value itself is formatted. |
| Formatters.InfinityAgrees | js/utils/formatters.js:12-23 | The two formatters show '∞' on exactly the same values. |
| Formatters.FirstUnitAtMost | js/utils/formatters.js:40-45 | The unit loop stops at the first unit whose threshold the value reaches; every unit before it is above the value; none is found only when all are above it. |
| Formatters.UnitRatio | js/utils/formatters.js:28-45 | The ratio shown for the unit the loop stopped at is the magnitude over that unit's threshold, at least 1, and below 100 for every unit but Shankh, since each threshold is a hundred times the next. |
| Formatters.FormatIndianCompact | js/utils/formatters.js:22-50 | '∞' exactly for non-finite input; no unit exactly when the magnitude is below 1000; otherwise the largest unit not above the magnitude, with the magnitude over the unit as ratio, in [1, 100) below the top unit; the sign is kept separately; the unit's name is the one listed with its threshold. |
| Formatters.CroreExample | js/utils/formatters.js:28-45 | 25,000,000 shows as 2.5 Crore. |
| Controls.LiveInput | js/calculators/gst-calculator.js:57-64 | After the GST live handler a field is blank or within its bounds; it is blank exactly when the typed text does not parse; an in-bounds field is untouched. |
| Controls.NumberFieldInput | js/calculators/sip-calculator.js:49-54 | The period/rate handler clamps the field as clampInputIfOutOfRange does (the hard clamp for ordered bounds) and assigns the clamped value to the slider, or the slider minimum when the field is blank. |
| Controls.FieldBlur | js/calculators/sip-calculator.js:74-76 | After a blur the field holds a number within its bounds, and an in-bounds number is kept. |
| Controls.AmountFieldInput | js/calculators/sip-calculator.js:35-41 | The amount handler leaves the slider alone exactly when the field is blank; otherwise the field holds the live-clamped amount (the hard clamp for ordered bounds) and the slider is assigned that amount's position in [0, 1000]. |
| Controls.AmountSliderInput | js/calculators/sip-calculator.js:43-47 | A slider move in the ladder zone writes an amount of at least 1. |
| Controls.RoundNiceFixesLadder | js/utils/formatters.js:152-156 | Nice rounding leaves every ladder amount unchanged. |
| Controls.SliderTickRoundTrip | js/calculators/sip-calculator.js:35-47 | Dragging the amount slider to ladder tick i writes the ladder amount; typing that amount back moves the slider to tick i again and leaves the field as is. |
| Charts.TotalBar | js/calculators/emi-calculator.js:93-103 | A single 'Total' bar chart: the base under the addition floored at zero, and the same two values as pie slices. |
| GstCalculator.GstBreakdown | js/calculators/gst-calculator.js:74-84 | net = original + tax in both modes. Add keeps the amount as the base and taxes it. Remove keeps the amount as the gross, and the base grown by the rate gives it back. For a non-negative amount and rate: no negative parts, and the base never exceeds the gross. |
| GstCalculator.RemoveUndoesAdd | js/calculators/gst-calculator.js:76-84 | Removing GST from the gross that Add produced recovers the same base and tax. |
| GstCalculator.AddUndoesRemove | js/calculators/gst-calculator.js:76-84 | Adding GST to the base that Remove extracted recovers the same gross and tax. |
| GstCalculator.DirectionOf | js/calculators/gst-calculator.js:72 | The direction is Add exactly when the Add button's aria-pressed is 'true'. |
| GstCalculator.ClickAdd | js/calculators/gst-calculator.js:32-42 | After clicking Add exactly one button is pressed and the direction is Add. |
| GstCalculator.ClickRemove | js/calculators/gst-calculator.js:44-54 | After clicking Remove exactly one button is pressed and the direction is Remove. |
| GstCalculator.CalculateGst | js/calculators/gst-calculator.js:69-103 | Each field reads as its parsed number, or 0 when it does not parse; the breakdown follows the toggle; the chart charts the base against the tax floored at zero. |
| GstCalculator.RatePreset | js/calculators/gst-calculator.js:17-29 | A rate preset button puts its rate into the rate field and recalculates: under Add the tax is the amount times rate/100, under Remove the gross stays the amount, with the breakdown calculateGST gives for that rate. |
| GstCalculator.PresetRateIsSettled | js/calculators/gst-calculator.js:17-29 | A preset rate within [0, 100] is left unchanged by the rate field's live and blur handlers, and with a settled amount it gives a non-negative tax and a base no larger than the gross. |
| GstCalculator.SettledInputsGiveSaneBreakdown | js/calculators/gst-calculator.js:57-84 | Once the handlers have settled both fields, the tax is never negative, the base never exceeds the gross, and the chart shows the tax unfloored. |
| GstCalculator.HandlersSettleFields | js/calculators/gst-calculator.js:56-67 | The live and blur handlers of both fields leave them blank or within [1, 5e9] and [0, 100]. |
| SipCalculator.MonthlyRate | js/calculators/sip-calculator.js:86 | The monthly rate is a twelfth of the annual percentage, and it is positive exactly when the annual rate is. |
| SipCalculator.FutureValueIsContributionValue | js/calculators/sip-calculator.js:85-89 | The closed-form future value equals depositing the amount at the start of every month and compounding monthly. |
| SipCalculator.ContributionValueExceedsDeposits | js/calculators/sip-calculator.js:87-88 | With a positive rate, the balance after any positive number of months exceeds the sum deposited. |
| SipCalculator.SipSummary | js/calculators/sip-calculator.js:85-89 | invested = 12·period deposits; total is the month-by-month balance; invested + returns = total; a positive plan has positive returns. |
| SipCalculator.YearValues | js/calculators/sip-calculator.js:99-106 | The value and invested sum charted for year y are the total and invested amount of a y-year plan, and the value exceeds the invested sum. |
| SipCalculator.CalculateSip | js/calculators/sip-calculator.js:78-124 | Computes exactly when all three inputs are positive. There is one Y1..Yn point per year, each the summary of a y-year plan with positive returns, and the last point is the summary itself. The pie is [invested, returns]. |
| SipCalculator.HandlersSettleFields | js/calculators/sip-calculator.js:35-76 | With the SIP bounds (amount 1..5e8, period and rate 1..100), the input handlers leave each field blank or within its bounds with the period and rate sliders following a parsed field, and every blur leaves a number within the bounds. |
| LumpsumCalculator.Growth | js/calculators/lumpsum-calculator.js:82 | The yearly growth factor exceeds one exactly when the rate is positive. |
| LumpsumCalculator.BalanceIsCompounded | js/calculators/lumpsum-calculator.js:82-83 | `amount·(1 + rate/100)^n` equals adding each year's interest to the balance. |
| LumpsumCalculator.LumpsumSummary | js/calculators/lumpsum-calculator.js:82-83 | invested is the amount; invested + returns = total; total is the year-by-year balance. |
| LumpsumCalculator.LumpsumGrowth | js/calculators/lumpsum-calculator.js:93-98 | With a positive rate the returns strictly grow with every extra year; at zero rate they are zero. |
| LumpsumCalculator.GainsIncrease | js/calculators/lumpsum-calculator.js:82-83 | With a positive amount and rate, a longer period yields strictly larger returns. |
| LumpsumCalculator.BalanceGrows | js/calculators/lumpsum-calculator.js:82 | With a positive amount and rate the balance stays positive and strictly grows from year to year. |
| LumpsumCalculator.CalculateLumpsum | js/calculators/lumpsum-calculator.js:75-116 | Computes exactly when all three inputs are positive. The invested series stays at the amount. Returns are positive, strictly increase year on year, and end at the summary's returns. The pie is [amount, returns]. |
| LumpsumCalculator.HandlersSettleFields | js/calculators/lumpsum-calculator.js:34-73 | With the lumpsum bounds (amount 1..5e9, period and rate 1..100), the input handlers leave each field blank or within its bounds with the period and rate sliders following a parsed field, and every blur leaves a number within the bounds. |
| EmiCalculator.OutstandingClosedForm | js/calculators/emi-calculator.js:82-84 | The month-by-month outstanding balance in closed form. |
| EmiCalculator.InstalmentRetiresLoan | js/calculators/emi-calculator.js:82-84 | Paying the computed instalment every month leaves exactly nothing outstanding at the end of the tenure. |
| EmiCalculator.GrowthBelowInstalmentCount | js/calculators/emi-calculator.js:84-86 | (1+r)^n − 1 < n·r·(1+r)^n for every positive rate and tenure: the instalments together exceed the principal. |
| EmiCalculator.InterestPositive | js/calculators/emi-calculator.js:84-86 | A positive loan at a positive rate costs more than its principal. |
| EmiCalculator.EmiSummaryOf | js/calculators/emi-calculator.js:82-86 | The instalment retires the loan over tenure·12 months; total payment is the instalments summed; amount + interest = total payment; a positive loan has positive interest. |
| EmiCalculator.CalculateEmi | js/calculators/emi-calculator.js:75-103 | Computes exactly when all three inputs are positive; charts a single 'Total' bar of principal under interest. |
| EmiCalculator.TenureInputAsWritten | js/calculators/emi-calculator.js:59-63 | The tenure handler as written clamps the tenure but moves the tenure slider to the rate field's value. |
| EmiCalculator.TenureSliderFollowsRate | js/calculators/emi-calculator.js:61 | Typing tenure 20 with rate 8.5 assigns 8.5, the rate's value, to the tenure slider instead of 20. |
| EmiCalculator.TenureInput | js/calculators/emi-calculator.js:59-63 | The corrected handler: the slider follows the clamped tenure, which lies in [1, 100], or goes to its minimum on blank input. |
| EmiCalculator.TenureHandlersDiffer | js/calculators/emi-calculator.js:59-63 | Both handlers write the same field; they differ exactly when the tenure parses and the rate field differs from the clamped tenure. |
| EmiCalculator.HandlersSettleFields | js/calculators/emi-calculator.js:34-73 | With the EMI bounds (amount 1..5e9, rate and tenure 1..100), the input handlers, the tenure handler as written included, leave each field blank or within its bounds; the rate slider and the corrected tenure slider follow a parsed field, and every blur leaves a number within the bounds. |
| TextEditor.StripTags | js/editorCalc.js:9 | Stripping never lengthens the text. |
| TextEditor.StripTagsValue | js/editorCalc.js:9 | A non-string gives ''; a string comes out with no `<…>` run left, and text without one is unchanged. |
| TextEditor.StripTagsDeletesOnly | js/editorCalc.js:9 | Every character of the result occurs in the input. |
| TextEditor.StripTagsLeavesNoTag | js/editorCalc.js:9 | The result contains no '<' followed later by '>'. |
| TextEditor.StripTagsKeepsPlainText | js/editorCalc.js:9 | Text with no `<…>` run is unchanged. |
| TextEditor.StripTagsKeepsPrefix | js/editorCalc.js:9 | Text before the first '<' survives stripping unchanged and in place, ahead of the stripped rest. |
| TextEditor.StripTagsDropsLeadingTag | js/editorCalc.js:9 | A leading `<…>` run is deleted up to and including its first '>', and the rest is stripped on its own. |
| TextEditor.StripTagsFixedPoints | js/editorCalc.js:9 | Stripping changes the text exactly when it holds a `<…>` run, so a second strip changes nothing. |
| TextEditor.NormalizeNewlines | js/editorCalc.js:65 | Normalisation never lengthens the text. |
| TextEditor.NormalizeUndoesCrlf | js/editorCalc.js:44 | Normalising undoes writing every LF as CR LF. |
| TextEditor.NormalizeKeepsCrFreeText | js/editorCalc.js:65 | Text containing no CR is unchanged. |
| TextEditor.NormalizeIsSinglePass | js/editorCalc.js:44 | The replacement is one left-to-right pass: "\r\r\n" becomes "\r\n", which a second pass would turn into "\n". |
| TextEditor.Load | js/editorCalc.js:24-27 | With a saved text the editor shows exactly that text with its tags stripped, so it holds no `<…>` run and is no longer than the saved text; with none the content stays. |
| TextEditor.Save | js/editorCalc.js:63-69 | Saving leaves the editor as is and stores its content: unchanged when it holds no CR, and with every CR LF turned back into LF when the content is a text written with CR LF line breaks. |
| TextEditor.Clear | js/editorCalc.js:36-41 | Clearing empties the editor and stores '', and a reload then shows the cleared editor. |
| TextEditor.DownloadText | js/editorCalc.js:42-45 | The downloaded text of content with CR LF line breaks is that content with LF line breaks; content with no CR downloads unchanged. |
| TextEditor.SaveLoadRoundTrip | js/editorCalc.js:24-69 | Save followed by reload gives back the normalised content exactly when it holds no `<…>` run. |
| BasicCalculator.Clamp | js/editorCalc.js:99 | With min ≤ max the result is in [min, max], and an in-range n is kept. |
| BasicCalculator.SetValue | js/editorCalc.js:155 | Assigning the display value keeps focus and disabled state and keeps the selection within the value. |
| BasicCalculator.SetCaret | js/editorCalc.js:158 | setSelectionRange(p, p) collapses the selection at p when p is within the value. |
| BasicCalculator.RenderCaret | js/editorCalc.js:130-137 | The internal caret ends within the value; it takes the clamped selection start when focused and is otherwise kept. |
| BasicCalculator.Insert | js/editorCalc.js:139-166 | The new value is the text before the start, the inserted text, and the text from the end. A value that does not fit changes nothing. Unfocused, the internal caret moves after the text; focused and enabled, the selection does. |
| BasicCalculator.Backspace | js/editorCalc.js:241-260 | Backspace keeps the selection within the value. |
| BasicCalculator.BackspaceRemovesOneChar | js/editorCalc.js:246-257 | With a collapsed caret at pos > 0 exactly the character before it goes and the caret moves one left; at 0 nothing changes. |
| BasicCalculator.Ans | js/editorCalc.js:261-268 | ANS inserts nothing exactly when the text before the caret ends in the word ANS in any case; otherwise it inserts "ANS". |
| BasicCalculator.ShowKey | js/editorCalc.js:275-279 | A one-character key is shown as the operator display maps it (* as ×, / as ÷), a longer key as itself, and sanitize's mapping takes every key without × or ÷ back to itself. |
| BasicCalculator.Typed | js/editorCalc.js:275-279 | The text a run of one-character keys writes, key by key, is the whole run with * and / shown as × and ÷. |
| BasicCalculator.HandleButton | js/editorCalc.js:233-281 | Every key keeps the selection within the value. C empties the display with the caret at 0. EQ shows the evaluated value with the caret inside it. |
| BasicCalculator.KeyOf | js/editorCalc.js:233-281 | The data-keys C, BS, ANS and EQ go to their own branches, C exactly to Clear and ANS exactly to the ANS guard; every other data-key is a plain key carrying that string, so no plain key bears a control name. |
| BasicCalculator.ClearButtonClears | js/editorCalc.js:235-240 | Clicking C empties the display and puts the caret at 0, including as one click of a run. |
| BasicCalculator.ClickAsWritten | js/editorCalc.js:284-297 | The click handler as written collapses the selection onto the internal caret, whatever the key did with the selection. |
| BasicCalculator.FocusedClicksReverseDigits | js/editorCalc.js:284-297 | On an empty focused display, keys 1 then 2 show "21". |
| BasicCalculator.Click | js/editorCalc.js:284-297 | The corrected click: same value as the key handler, with selection and internal caret collapsed together within the value. |
| BasicCalculator.ClickAsWrittenUnfocused | js/editorCalc.js:284-297 | When the display does not have focus as a click begins, the handler as written and the corrected click give the same calculator. |
| BasicCalculator.BlurredClickIsClick | js/editorCalc.js:233-297 | On a settled, enabled display, a click whose button takes focus first gives, through the handler as written, exactly what the corrected click gives, whether the display had focus or not. |
| BasicCalculator.BlurredHandlerAgrees | js/editorCalc.js:233-281 | On a settled display every key leaves the same value, internal caret and enabled state whether or not the display has focus. |
| BasicCalculator.BlurredInsertAgrees | js/editorCalc.js:139-166 | insert() on a settled display leaves the same value, caret and enabled state focused or not. |
| BasicCalculator.BlurredBackspaceAgrees | js/editorCalc.js:241-260 | Backspace on a settled display leaves the same value, caret and enabled state focused or not. |
| BasicCalculator.ClickKeepsEnabled | js/editorCalc.js:233-297 | No click enables or disables the display. |
| BasicCalculator.ClicksAsWrittenAgree | js/editorCalc.js:233-297 | From a settled, enabled display, a run of clicks through the handler as written, each button taking focus first, ends exactly where the run of corrected clicks ends. |
| BasicCalculator.ClickInsertsAtCaret | js/editorCalc.js:275-297 | Through the corrected click, a key click inserts its symbol at the caret and leaves the caret after it, focused or not. |
| BasicCalculator.InsertClickAtCaret | js/editorCalc.js:284-297 | Through the corrected click on a synchronised display, a click whose handler inserts a text writes it at the caret and leaves the caret after it, the display enabled. |
| BasicCalculator.ClicksWriteTyped | js/editorCalc.js:233-297 | Through the corrected click, clicking the one-character buttons of a text without the clear button C one by one writes exactly its typed form at the caret, in order, and leaves the caret after it. |
| BasicCalculator.ClicksKeepOrder | js/editorCalc.js:275-297 | Two corrected key clicks write both symbols at the caret in the order pressed. |
| BasicCalculator.BackspaceUndoesKey | js/editorCalc.js:241-297 | Through the corrected click, a one-character key then Backspace gives back the value and the caret. |
| BasicCalculator.AnsNotRepeated | js/editorCalc.js:261-297 | Right after ANS was inserted as a word, a second ANS changes nothing: through the corrected click, and through the handler as written when each pressed button takes focus. |
| BasicCalculator.AnsFirstClick | js/editorCalc.js:261-297 | Through the corrected click, on a settled, enabled display whose text before the caret does not end in the word ANS, clicking ANS inserts "ANS" at the caret and leaves the caret right after it, focused. |
| BasicCalculator.GuardedAnsClickNoop | js/editorCalc.js:261-297 | With the caret right after the word ANS on a focused, enabled display, clicking ANS leaves the calculator exactly as it was. |
| BasicCalculator.AnsClickIsKeyClick | js/editorCalc.js:261-268 | When the guard does not fire, the ANS key inserts "ANS" as typed text. |
| BasicCalculator.AnsWordAtEnd | js/editorCalc.js:264 | "ANS" typed at the start or after a non-word character ends the text in the word ANS. |
| BasicCalculator.SettledClickNoop | js/editorCalc.js:284-297 | On a focused, enabled display with a collapsed selection on the internal caret, a key the handler ignores leaves the calculator unchanged through the click as well. |
| BasicCalculator.AnsAfterDigitRepeats | js/editorCalc.js:264 | `\b` does not separate a digit from "ANS", so "5ANS" takes a second ANS. |
| BasicCalculator.MoveCaret | js/editorCalc.js:302-331 | The value is untouched; the caret lands on clamp(current + delta, 0, length), where current is the selection start when focused and the internal caret otherwise (a disabled, focused display aside); an enabled display ends with selection and caret together. |
| BasicCalculator.MapPrettyOperators | js/editorCalc.js:170 | × becomes *, ÷ becomes /, and every other character stays, position by position. |
| BasicCalculator.MapPrettyKeepsPlainText | js/editorCalc.js:170 | Text without × or ÷ passes the mapping unchanged. |
| BasicCalculator.PrettyOperatorsRoundTrip | js/editorCalc.js:170 | Mapping pretty symbols back undoes the keypad's operator display. |
| BasicCalculator.Sanitize | js/editorCalc.js:168-175 | Accepts exactly a non-empty result made only of digits, white space and `-+*/()%.`, returns that result, and it holds no ×, ÷ or '<'. |
| BasicCalculator.KeypadExpressionSanitizes | js/editorCalc.js:168-175 | What the keys of a whitelisted expression write on the display, one key per character, is accepted by sanitize as the expression itself. |
| BasicCalculator.ClicksOnEmptyDisplay | js/editorCalc.js:233-297 | On an empty display, clicking the buttons of a text without C leaves exactly its typed form: through the corrected click, and through the handler as written when each pressed button takes focus. |
| BasicCalculator.KeypadClicksSanitize | js/editorCalc.js:168-297 | Clicking the buttons of a whitelisted expression on an empty display leaves text that sanitize accepts as the expression itself: through the corrected click, and through the handler as written when each pressed button takes focus. |

## Left out

- Floating point: NaN, infinities, rounding error, `toFixed`, `toExponential`
  and `toLocaleString`. Every number is an exact real. The digits that
  `formatCurrency` and `formatIndianCompact` print are not modelled; only the
  '∞' choice and the unit choice are.
- Fractional periods and tenures. Years are whole numbers, so the chart's
  `Math.max(1, Math.round(period))` is the period itself.
- Formatters.AmountFromSliderPos: the exponential zone goes through an
  uninterpreted `Math.pow`, so the contract says nothing about amounts above
  the ladder.
- Formatters.SliderPosFromAmount: the exponential zone goes through an
  uninterpreted `Math.log`. The contract states only that the position is in
  [0, 1000]. It requires that log is positive above one, so the division by
  `log(ratio)` is defined.
- Controls.AmountSliderInput: states only the ladder-zone lower bound, for
  the same reason.
- GstCalculator.GstBreakdown: requires 1 + rate/100 ≠ 0 for Remove. At rate
  −100 JavaScript divides by zero and shows '∞'. The handlers clamp the rate
  to [0, 100], so the case needs a user-edited field that was never blurred
  or clamped.
- GstCalculator.CalculateGst: the same requirement.
- GstCalculator.RatePreset: the same requirement, on the preset rate.
- SipCalculator.SipSummary: requires a positive rate, because the closed form
  divides by the monthly rate. calculateSIP itself returns before computing
  at rate 0.
- EmiCalculator.EmiSummaryOf: requires a positive rate and tenure, which the
  guard in calculateEMI ensures.
- The CSS class toggling of the GST rate preset buttons. Their effect on the
  rate field and the recalculation is `GstCalculator.RatePreset`. The
  buttons' data-rate values live in the page's markup, so the rate is a
  parameter.
- Controls.NumberFieldInput: the slider is modelled as holding the number
  assigned to it. A browser range input further clamps an assigned value
  to its own min/max and rounds it to its step; that sanitisation is not
  modelled.
- Controls.AmountFieldInput: the same, for the amount slider's position.
- EmiCalculator.TenureInputAsWritten: the same; the tenure slider is
  assigned the rate's value, and where the browser then puts it depends on
  the slider's range and step.
- EmiCalculator.TenureInput: the same, for the clamped tenure.
- The period, rate and tenure slider handlers copy the slider value into the
  field unchanged, so they are not modelled separately.
- Chart titles, colours, badges and series labels, and Chart.js itself
  (`updateCharts`). Only the data handed to it is modelled.
- localStorage failures (the try/catch blocks), the save indicator, and the
  debounce and unload timers of the editor. The store is the string it
  holds.
- BasicCalculator.HandleButton: EQ takes the value the evaluator leaves on
  the display as a parameter. The evaluator (`Function(...)`), its
  result-compaction loops and the history line are not modelled.
- BasicCalculator.Insert: the "Max width reached" history message and its
  timer are not modelled. `fitsValue` is a parameter.
- BasicCalculator.Sanitize: the `N%` rewrite (a regular expression with a
  lookahead) is a parameter. The contract is stated relative to its output.
- The keyboard, paste and drop blockers on the display, and the caret-position
  label.
- The market ticker, RSS feeds, theme, storage, mobile-input and service
  worker scripts are not part of this model.

## Findings

| source | as written | input that shows it | evidently intended | confidence | as-written member | corrected member |
|---|---|---|---|---|---|---|
| js/calculators/emi-calculator.js:61 | The tenure input handler sets the tenure slider to `emiRate.value` | Type tenure 20 while the rate field reads 8.5: the tenure slider is set to the rate's value 8.5, not 20 | Set it to `emiTenure.value`, as the period and rate handlers do for their own sliders | high; not executed | EmiCalculator.TenureInputAsWritten, EmiCalculator.TenureSliderFollowsRate | EmiCalculator.TenureInput, EmiCalculator.TenureHandlersDiffer |
| js/editorCalc.js:284-297 | The click handler re-selects the stored `caretPos`. When the display is focused, `insert` moves only the selection and leaves `caretPos` behind | A click dispatched while the empty display keeps focus: keys 1 then 2 show "21" | Take the selection into `caretPos` (`renderCaret`) before re-selecting, so keys appear in the order pressed | low; not executed; only reachable when the display keeps focus while a key's click handler runs | BasicCalculator.ClickAsWritten, BasicCalculator.FocusedClicksReverseDigits | BasicCalculator.Click, BasicCalculator.ClicksKeepOrder |

=== FILE: basic_calculator.dfy ===
/** The basic calculator of js/editorCalc.js (setupBasicCalculator): a
    read-only display edited only through on-screen keys, with an internal
    caret used when the display does not have focus. The display's value,
    selection, focus and disabled state are explicit fields; whether a value
    fits the display (a DOM width measurement) is a predicate parameter, and
    so is the outcome of evaluating an expression. */
module BasicCalculator {
  import opened Numeric

  /** The display input as the handlers see it. `selStart`/`selEnd` are
      selectionStart/selectionEnd (None for null). */
  datatype Display = Display(
    value: string,
    selStart: Option<nat>,
    selEnd: Option<nat>,
    focused: bool,
    disabled: bool)

  /** The display and the internal caret `caretPos`. */
  datatype Calc = Calc(display: Display, caret: nat)

  /** fitsValue: whether a value's rendered width fits the display box. */
  type Fits = string -> bool

  /** The keys of the on-screen keypad: the four control keys and a plain
      key carrying any other data-key. Keys are built from a button's
      data-key by KeyOf, so a plain key never carries a control name. */
  datatype Key = ClearKey | BackspaceKey | AnsKey | EqualsKey | Press(k: string)

  /** handleButton's switch on a button's data-key: 'C', 'BS', 'ANS' and
      'EQ' have branches of their own, anything else is inserted. */
  function KeyOf(dataKey: string): (key: Key)
    ensures key.Press? <==> dataKey !in {"C", "BS", "ANS", "EQ"}
    ensures key.Press? ==> key.k == dataKey
    ensures dataKey == "C" <==> key == ClearKey
    ensures dataKey == "ANS" <==> key == AnsKey
  {
    if dataKey == "C" then ClearKey
    else if dataKey == "BS" then BackspaceKey
    else if dataKey == "ANS" then AnsKey
    else if dataKey == "EQ" then EqualsKey
    else Press(dataKey)
  }

  /** `clamp(n, min, max)`: Math.min(Math.max(n, min), max). */
  function Clamp(n: int, min: int, max: int): (r: int)
    ensures min <= max ==> min <= r <= max
    ensures min <= n <= max ==> r == n
    ensures max < min ==> r == max
  {
    MinInt(MaxInt(n, min), max)
  }

  /** A JavaScript string index clamped to the string as slice() does for a
      non-negative argument. */
  function SliceIndex(s: string, k: nat): (i: nat)
    ensures i <= |s| && (k <= |s| ==> i == k)
  {
    if k <= |s| then k else |s|
  }

  /** `s.slice(0, k)` */
  function Prefix(s: string, k: nat): (r: string)
    ensures r == s[..SliceIndex(s, k)]
  {
    s[..SliceIndex(s, k)]
  }

  /** `s.slice(k)` */
  function From(s: string, k: nat): (r: string)
    ensures r == s[SliceIndex(s, k)..]
  {
    s[SliceIndex(s, k)..]
  }

  /** The selection lies within the value, start before end (the browser
      keeps it so). */
  predicate SelectionInRange(d: Display) {
    && (d.selStart.Some? ==> d.selStart.value <= |d.value|)
    && (d.selEnd.Some? ==> d.selEnd.value <= |d.value|)
    && (d.selStart.Some? && d.selEnd.Some? ==> d.selStart.value <= d.selEnd.value)
  }

  /** Assigning `display.value`: a different value puts the text cursor at
      its end, as section 4.10.5.4 of the HTML standard prescribes for text
      controls. */
  function SetValue(d: Display, v: string): (d': Display)
    ensures d'.value == v && d'.focused == d.focused && d'.disabled == d.disabled
    ensures SelectionInRange(d) ==> SelectionInRange(d')
  {
    if v == d.value then d else d.(value := v, selStart := Some(|v|), selEnd := Some(|v|))
  }

  /** `setSelectionRange(p, p)`, which the browser clamps to the value. */
  function SetCaret(d: Display, p: int): (d': Display)
    ensures d'.value == d.value && d'.focused == d.focused && d'.disabled == d.disabled
    ensures SelectionInRange(d')
    ensures 0 <= p <= |d.value| ==> d'.selStart == d'.selEnd == Some(p)
  {
    var q := Clamp(p, 0, |d.value|);
    d.(selStart := Some(q), selEnd := Some(q))
  }

  /** renderCaret: the internal caret takes the selection start when the
      display is focused, and is clamped into the value. */
  function RenderCaret(c: Calc): (c': Calc)
    ensures c'.display == c.display
    ensures c'.caret <= |c.display.value|
    ensures c.display.focused && c.display.selStart.Some? ==>
      c'.caret == Clamp(c.display.selStart.value, 0, |c.display.value|)
    ensures !(c.display.focused && c.display.selStart.Some?) && c.caret <= |c.display.value| ==> c'.caret == c.caret
  {
    var d := c.display;
    var selPos := if d.focused && d.selStart.Some? then d.selStart.value else c.caret;
    c.(caret := Clamp(selPos, 0, |d.value|))
  }

  /** Where an edit starts and ends: the selection when focused (the value's
      end when it is null), the internal caret otherwise. */
  function EditStart(c: Calc): nat {
    if c.display.focused then c.display.selStart.GetOr(|c.display.value|) else c.caret
  }

  function EditEnd(c: Calc): nat {
    if c.display.focused then c.display.selEnd.GetOr(|c.display.value|) else c.caret
  }

  /** The caret sits at a collapsed selection at `pos` and the internal caret
      agrees with it: the state the click handler leaves behind. */
  predicate CollapsedAt(c: Calc, pos: nat) {
    c.caret == pos && c.display.selStart == Some(pos) && c.display.selEnd == Some(pos)
  }

  /** insert(text): splice the text over the selection (or at the caret) if
      the result fits, and put the caret after it. A value that does not fit
      leaves everything as it was. */
  function Insert(c: Calc, text: string, fits: Fits): (c': Calc)
    ensures var next := Prefix(c.display.value, EditStart(c)) + text + From(c.display.value, EditEnd(c));
      && (!fits(next) ==> c' == c)
      && (fits(next) ==>
            c'.display.value == next && c'.display.focused == c.display.focused && c'.display.disabled == c.display.disabled)
      && (fits(next) && !c.display.focused && EditStart(c) <= |c.display.value| ==>
            c'.caret == EditStart(c) + |text|)
      && (fits(next) && c.display.focused && !c.display.disabled && EditStart(c) <= |c.display.value| ==>
            c'.display.selStart == c'.display.selEnd == Some(EditStart(c) + |text|))
      && (c.display.focused ==> c'.caret == c.caret)
    ensures SelectionInRange(c.display) ==> SelectionInRange(c'.display)
  {
    var d := c.display;
    var start := EditStart(c);
    var next := Prefix(d.value, start) + text + From(d.value, EditEnd(c));
    if !fits(next) then c
    else
      var pos := start + |text|;
      var d1 := SetValue(d, next);
      var d2 := if d.focused && !d.disabled then SetCaret(d1, pos) else d1;
      if !d.focused then RenderCaret(Calc(d2, pos)) else Calc(d2, c.caret)
  }

  /** The 'BS' key: with a focused, enabled display holding a non-empty
      selection, delete the selection; otherwise delete the character before
      the caret, if there is one. */
  function Backspace(c: Calc, fits: Fits): (c': Calc)
    ensures SelectionInRange(c.display) ==> SelectionInRange(c'.display)
  {
    var d := c.display;
    if d.focused && !d.disabled && d.selStart != d.selEnd then Insert(c, "", fits)
    else
      var pos := if d.focused then d.selStart.GetOr(|d.value|) else c.caret;
      if pos == 0 then c
      else
        var v := Prefix(d.value, pos - 1) + From(d.value, d.selEnd.GetOr(pos));
        var d1 := SetValue(d, v);
        var d2 := if d.focused && !d.disabled then SetCaret(d1, pos - 1) else d1;
        if !d.focused then RenderCaret(Calc(d2, pos - 1)) else Calc(d2, c.caret)
  }

  /** With the caret collapsed at pos, Backspace removes exactly the
      character before it and leaves the caret one place to the left; at the
      start of the value it changes nothing. */
  lemma BackspaceRemovesOneChar(c: Calc, pos: nat, fits: Fits)
    requires CollapsedAt(c, pos) && pos <= |c.display.value|
    ensures pos == 0 ==> Backspace(c, fits) == c
    ensures 0 < pos ==>
      && Backspace(c, fits).display.value == c.display.value[..pos - 1] + c.display.value[pos..]
      && (!c.display.focused ==> Backspace(c, fits).caret == pos - 1)
      && (c.display.focused && !c.display.disabled ==>
            Backspace(c, fits).display.selStart == Some(pos - 1))
  {
  }

  /** `/\bANS$/i` on the text before the caret: it ends in "ans" in any
      letter case, not preceded by a word character. */
  predicate EndsWithAnsWord(b: string) {
    && |b| >= 3
    && b[|b| - 3] in "aA" && b[|b| - 2] in "nN" && b[|b| - 1] in "sS"
    && (|b| == 3 || !IsWordChar(b[|b| - 4]))
  }

  /** `\w`: an ASCII letter, digit or underscore. */
  predicate IsWordChar(ch: char) {
    ('a' <= ch <= 'z') || ('A' <= ch <= 'Z') || ('0' <= ch <= '9') || ch == '_'
  }

  /** The 'ANS' key: insert "ANS" unless the text before the caret already
      ends in the word ANS. */
  function Ans(c: Calc, fits: Fits): (c': Calc)
    ensures EndsWithAnsWord(Prefix(c.display.value, EditStart(c))) ==> c' == c
    ensures !EndsWithAnsWord(Prefix(c.display.value, EditStart(c))) ==> c' == Insert(c, "ANS", fits)
  {
    var before := Prefix(c.display.value, EditStart(c));
    if EndsWithAnsWord(before) then c else Insert(c, "ANS", fits)
  }

  /** How the keypad shows a key on the display: the operator keys * and /
      as × and ÷, anything else as pressed. A single key is shown as the
      operator display maps it, and sanitize's mapping takes it back. */
  function ShowKey(k: string): (shown: string)
    ensures |k| == 1 ==> shown == ShowOperators(k)
    ensures |k| != 1 ==> shown == k
    ensures '×' !in k && '÷' !in k ==> MapPrettyOperators(shown) == k
  {
    var shown := if k == "*" then "×" else if k == "/" then "÷" else k;
    assert |k| == 1 ==> shown == ShowOperators(k) by {
      if |k| == 1 {
        assert ShowOperators(k) == [ShowOperators(k)[0]];
        assert k == [k[0]];
      }
    }
    assert '×' !in k && '÷' !in k ==> MapPrettyOperators(shown) == k by {
      if '×' !in k && '÷' !in k {
        if k == "*" {
          assert MapPrettyOperators("×") == [MapPrettyOperators("×")[0]];
        } else if k == "/" {
          assert MapPrettyOperators("÷") == [MapPrettyOperators("÷")[0]];
        } else {
          MapPrettyKeepsPlainText(k);
        }
      }
    }
    shown
  }

  /** The text a run of one-character keys writes on the display, key by
      key: each key as ShowKey shows it. */
  function Typed(keys: string): (shown: string)
    ensures shown == ShowOperators(keys)
  {
    if |keys| == 0 then ""
    else
      assert ShowOperators(keys) == ShowOperators([keys[0]]) + ShowOperators(keys[1..]);
      ShowKey([keys[0]]) + Typed(keys[1..])
  }

  /** handleButton: dispatch one key. EQ takes the value evaluateExpr leaves
      on the display (`evaluated`) and moves the caret to its end. */
  function HandleButton(c: Calc, key: Key, fits: Fits, evaluated: string): (c': Calc)
    ensures SelectionInRange(c.display) ==> SelectionInRange(c'.display)
    ensures key == ClearKey ==> c'.display.value == [] && c'.caret == 0
    ensures key == EqualsKey ==> c'.display.value == evaluated && c'.caret <= |evaluated|
  {
    match key
    case ClearKey => RenderCaret(Calc(SetValue(c.display, ""), 0))
    case BackspaceKey => Backspace(c, fits)
    case AnsKey => Ans(c, fits)
    case EqualsKey =>
      var d := SetValue(c.display, evaluated);
      RenderCaret(Calc(d, |evaluated|))
    case Press(k) => Insert(c, ShowKey(k), fits)
  }

  /** A button click as written: handleButton, then, when the display is
      enabled, focus it and put its selection on the internal caret. */
  function ClickAsWritten(c: Calc, key: Key, fits: Fits, evaluated: string): (c': Calc)
    ensures SelectionInRange(c.display) ==> SelectionInRange(c'.display)
    ensures !c'.display.disabled && c'.caret <= |c'.display.value| ==> CollapsedAt(c', c'.caret)
  {
    var c1 := HandleButton(c, key, fits, evaluated);
    if c1.display.disabled then c1
    else
      var d := c1.display.(focused := true);
      Calc(SetCaret(d, c1.caret), c1.caret)
  }

  /** The pressed button takes focus from the display: the calculator as
      the handler sees it when the display is not the focused element. */
  function Blur(c: Calc): (c': Calc)
    ensures !c'.display.focused && c'.caret == c.caret
    ensures c'.display == c.display.(focused := false)
  {
    c.(display := c.display.(focused := false))
  }

  /** A click that starts on an unfocused display needs no caret
      synchronising: the handler as written is the corrected click. */
  lemma ClickAsWrittenUnfocused(c: Calc, key: Key, fits: Fits, evaluated: string)
    requires !c.display.focused && c.caret <= |c.display.value|
    ensures ClickAsWritten(c, key, fits, evaluated) == Click(c, key, fits, evaluated)
  {
  }

  /** On a settled display, a click whose button takes focus first does
      what the corrected click does, whether the display had focus or not. */
  lemma BlurredClickIsClick(c: Calc, key: Key, fits: Fits)
    requires !c.display.disabled && CollapsedAt(c, c.caret) && c.caret <= |c.display.value|
    ensures ClickAsWritten(Blur(c), key, fits, "") == Click(c, key, fits, "")
  {
    ClickAsWrittenUnfocused(Blur(c), key, fits, "");
    BlurredHandlerAgrees(c, key, fits);
  }

  /** On a settled display the handler leaves the same value, caret and
      enabled state whether or not the display has focus; only where the
      selection lies can differ, and the click then replaces it. */
  lemma BlurredHandlerAgrees(c: Calc, key: Key, fits: Fits)
    requires !c.display.disabled && CollapsedAt(c, c.caret) && c.caret <= |c.display.value|
    ensures var a := RenderCaret(HandleButton(Blur(c), key, fits, ""));
      var b := RenderCaret(HandleButton(c, key, fits, ""));
      a.display.value == b.display.value && a.caret == b.caret && a.display.disabled == b.display.disabled
  {
    match key
    case ClearKey =>
    case BackspaceKey => BlurredBackspaceAgrees(c, fits);
    case AnsKey =>
      assert EditStart(Blur(c)) == EditStart(c);
      BlurredInsertAgrees(c, "ANS", fits);
    case EqualsKey =>
    case Press(k) => BlurredInsertAgrees(c, ShowKey(k), fits);
  }

  /** insert() on a settled display, focused or not. */
  lemma BlurredInsertAgrees(c: Calc, t: string, fits: Fits)
    requires !c.display.disabled && CollapsedAt(c, c.caret) && c.caret <= |c.display.value|
    ensures var a := RenderCaret(Insert(Blur(c), t, fits));
      var b := RenderCaret(Insert(c, t, fits));
      a.display.value == b.display.value && a.caret == b.caret && a.display.disabled == b.display.disabled
  {
  }

  /** Backspace on a settled display, focused or not. */
  lemma BlurredBackspaceAgrees(c: Calc, fits: Fits)
    requires !c.display.disabled && CollapsedAt(c, c.caret) && c.caret <= |c.display.value|
    ensures var a := RenderCaret(Backspace(Blur(c), fits));
      var b := RenderCaret(Backspace(c, fits));
      a.display.value == b.display.value && a.caret == b.caret && a.display.disabled == b.display.disabled
  {
  }

  /** When the display has focus during a click, an insertion moves only the
      selection and leaves `caretPos` behind, and the click handler then puts
      the selection back on the stale caret: keying 1 then 2 on an empty
      focused display shows "21". */
  lemma FocusedClicksReverseDigits(fits: Fits)
    requires forall s :: fits(s)
    ensures var c0 := Calc(Display("", Some(0), Some(0), true, false), 0);
      var c1 := ClickAsWritten(c0, Press("1"), fits, "");
      var c2 := ClickAsWritten(c1, Press("2"), fits, "");
      c1.display.value == "1" && c1.caret == 0 && c2.display.value == "21"
  {
    var c0 := Calc(Display("", Some(0), Some(0), true, false), 0);
    var c1 := ClickAsWritten(c0, Press("1"), fits, "");
    assert c1.display.value == "1";
    assert c1.display.selStart == Some(0);
    var c2 := ClickAsWritten(c1, Press("2"), fits, "");
    assert Prefix("1", 0) + "2" + From("1", 0) == "21";
  }

  /** A button click with the caret synchronised first: renderCaret takes
      the selection over into `caretPos` before the handler re-selects it. */
  function Click(c: Calc, key: Key, fits: Fits, evaluated: string): (c': Calc)
    ensures SelectionInRange(c.display) ==> SelectionInRange(c'.display)
    ensures !c'.display.disabled ==> CollapsedAt(c', c'.caret) && c'.caret <= |c'.display.value| && c'.display.focused
    ensures c'.display.value == HandleButton(c, key, fits, evaluated).display.value
  {
    var c1 := RenderCaret(HandleButton(c, key, fits, evaluated));
    if c1.display.disabled then c1
    else
      var d := c1.display.(focused := true);
      Calc(SetCaret(d, c1.caret), c1.caret)
  }

  /** On a synchronised display, a corrected click whose handler inserts t
      writes t at the caret and leaves the caret after it, focused or not. */
  lemma InsertClickAtCaret(c: Calc, key: Key, t: string, fits: Fits)
    requires !c.display.disabled && CollapsedAt(c, c.caret) && c.caret <= |c.display.value|
    requires fits(c.display.value[..c.caret] + t + c.display.value[c.caret..])
    requires HandleButton(c, key, fits, "") == Insert(c, t, fits)
    ensures var c' := Click(c, key, fits, "");
      && c'.display.value == c.display.value[..c.caret] + t + c.display.value[c.caret..]
      && c'.caret == c.caret + |t|
      && CollapsedAt(c', c'.caret) && !c'.display.disabled
  {
  }

  /** With the caret synchronised, a corrected key click inserts its symbol
      at the caret and leaves the caret after it, whether or not the display
      had focus, so successive keys appear in the order they were pressed. */
  lemma ClickInsertsAtCaret(c: Calc, k: string, fits: Fits)
    requires !c.display.disabled && CollapsedAt(c, c.caret) && c.caret <= |c.display.value|
    requires fits(c.display.value[..c.caret] + ShowKey(k) + c.display.value[c.caret..])
    ensures var c' := Click(c, Press(k), fits, "");
      && c'.display.value == c.display.value[..c.caret] + ShowKey(k) + c.display.value[c.caret..]
      && c'.caret == c.caret + |ShowKey(k)|
      && CollapsedAt(c', c'.caret) && !c'.display.disabled
  {
    InsertClickAtCaret(c, Press(k), ShowKey(k), fits);
  }

  /** Two corrected key clicks on a synchronised display write both symbols
      at the caret in order, focused or not. */
  lemma ClicksKeepOrder(c: Calc, k1: string, k2: string, fits: Fits)
    requires !c.display.disabled && CollapsedAt(c, c.caret) && c.caret <= |c.display.value|
    requires forall s :: fits(s)
    ensures var v := c.display.value;
      Click(Click(c, Press(k1), fits, ""), Press(k2), fits, "").display.value
        == v[..c.caret] + ShowKey(k1) + ShowKey(k2) + v[c.caret..]
  {
    var v := c.display.value;
    var c1 := Click(c, Press(k1), fits, "");
    ClickInsertsAtCaret(c, k1, fits);
    ClickInsertsAtCaret(c1, k2, fits);
    SpliceTwice(v, c.caret, ShowKey(k1), c1.display.value, ShowKey(k2));
  }

  /** A one-character key followed by Backspace, both corrected clicks,
      gives back the value the display had, with the caret where it was. */
  lemma BackspaceUndoesKey(c: Calc, k: string, fits: Fits)
    requires !c.display.disabled && CollapsedAt(c, c.caret) && c.caret <= |c.display.value|
    requires |ShowKey(k)| == 1
    requires forall s :: fits(s)
    ensures var c2 := Click(Click(c, Press(k), fits, ""), BackspaceKey, fits, "");
      c2.display.value == c.display.value && c2.caret == c.caret
  {
    var v := c.display.value;
    var c1 := Click(c, Press(k), fits, "");
    ClickInsertsAtCaret(c, k, fits);
    BackspaceRemovesOneChar(c1, c.caret + 1, fits);
    assert c1.display.value[..c.caret] == v[..c.caret];
    assert c1.display.value[c.caret + 1..] == v[c.caret..];
    assert v == v[..c.caret] + v[c.caret..];
  }

  /** The ANS guard: right after ANS was inserted at a caret not preceded
      by a word character, pressing ANS again changes nothing, through the
      corrected click and through the handler as written when the pressed
      button takes focus. */
  lemma AnsNotRepeated(c: Calc, fits: Fits)
    requires !c.display.disabled && CollapsedAt(c, c.caret) && c.caret <= |c.display.value|
    requires forall s :: fits(s)
    requires c.caret == 0 || !IsWordChar(c.display.value[c.caret - 1])
    requires !EndsWithAnsWord(c.display.value[..c.caret])
    ensures var c1 := Click(c, AnsKey, fits, "");
      && c1.display.value == c.display.value[..c.caret] + "ANS" + c.display.value[c.caret..]
      && Click(c1, AnsKey, fits, "") == c1
    ensures var c1 := ClickAsWritten(Blur(c), AnsKey, fits, "");
      && c1.display.value == c.display.value[..c.caret] + "ANS" + c.display.value[c.caret..]
      && ClickAsWritten(Blur(c1), AnsKey, fits, "") == c1
  {
    var c1 := Click(c, AnsKey, fits, "");
    AnsFirstClick(c, fits);
    AnsWordAtEnd(c.display.value[..c.caret]);
    GuardedAnsClickNoop(c1, c.caret + 3, fits);
    BlurredClickIsClick(c, AnsKey, fits);
    BlurredClickIsClick(c1, AnsKey, fits);
  }

  /** The first corrected ANS click inserts ANS as a key click would and
      leaves the display settled just after it. */
  lemma AnsFirstClick(c: Calc, fits: Fits)
    requires !c.display.disabled && CollapsedAt(c, c.caret) && c.caret <= |c.display.value|
    requires forall s :: fits(s)
    requires !EndsWithAnsWord(c.display.value[..c.caret])
    ensures var c1 := Click(c, AnsKey, fits, "");
      && c1.display.value == c.display.value[..c.caret] + "ANS" + c.display.value[c.caret..]
      && !c1.display.disabled && c1.display.focused
      && CollapsedAt(c1, c.caret + 3) && c.caret + 3 <= |c1.display.value|
      && c1.display.value[..c.caret + 3] == c.display.value[..c.caret] + "ANS"
  {
    var v := c.display.value;
    assert Prefix(v, EditStart(c)) == v[..c.caret];
    AnsClickIsKeyClick(c, fits, "");
    InsertClickAtCaret(c, AnsKey, "ANS", fits);
  }

  /** On a focused, settled display whose text before the caret ends in the
      word ANS, an ANS click changes nothing. */
  lemma GuardedAnsClickNoop(c: Calc, p: nat, fits: Fits)
    requires !c.display.disabled && c.display.focused
    requires CollapsedAt(c, p) && p <= |c.display.value|
    requires EndsWithAnsWord(c.display.value[..p])
    ensures Click(c, AnsKey, fits, "") == c
  {
    assert Prefix(c.display.value, EditStart(c)) == c.display.value[..p];
    SettledClickNoop(c, AnsKey, fits, "");
  }

  /** With the guard not firing, the ANS key inserts "ANS" as typed text. */
  lemma AnsClickIsKeyClick(c: Calc, fits: Fits, evaluated: string)
    requires !EndsWithAnsWord(Prefix(c.display.value, EditStart(c)))
    ensures HandleButton(c, AnsKey, fits, evaluated) == Insert(c, "ANS", fits)
  {
  }

  /** "ANS" typed after a non-word character ends in the word ANS. */
  lemma AnsWordAtEnd(p: string)
    requires |p| == 0 || !IsWordChar(p[|p| - 1])
    ensures EndsWithAnsWord(p + "ANS")
  {
    var b := p + "ANS";
    assert b[|b| - 3] == 'A' && b[|b| - 2] == 'N' && b[|b| - 1] == 'S';
    assert |b| > 3 ==> b[|b| - 4] == p[|p| - 1];
  }

  /** A key the handler ignores leaves a settled, focused display as it is. */
  lemma SettledClickNoop(c: Calc, key: Key, fits: Fits, evaluated: string)
    requires !c.display.disabled && c.display.focused
    requires CollapsedAt(c, c.caret) && c.caret <= |c.display.value|
    requires HandleButton(c, key, fits, evaluated) == c
    ensures Click(c, key, fits, evaluated) == c
  {
    assert RenderCaret(c) == c;
  }

  /** ANS after a digit is not a separate word, so the guard lets a second
      ANS through: "5ANS" becomes "5ANSANS". */
  lemma AnsAfterDigitRepeats(fits: Fits)
    requires forall s :: fits(s)
    ensures var c := Calc(Display("5ANS", Some(4), Some(4), false, false), 4);
      Ans(c, fits).display.value == "5ANSANS"
  {
    var c := Calc(Display("5ANS", Some(4), Some(4), false, false), 4);
    assert Prefix("5ANS", 4) == "5ANS";
    assert !EndsWithAnsWord("5ANS");
    assert Prefix("5ANS", 4) + "ANS" + From("5ANS", 4) == "5ANSANS";
  }

  /** The caret navigation buttons: move one place left (delta -1) or right
      (delta +1) from the current position, clamped into the value, and
      leave the selection on the new position when the display is enabled. */
  function MoveCaret(c: Calc, delta: int): (c': Calc)
    ensures c'.display.value == c.display.value
    ensures c'.caret <= |c.display.value|
    ensures SelectionInRange(c.display) ==> SelectionInRange(c'.display)
    ensures !c.display.disabled ==> CollapsedAt(c', c'.caret)
    ensures !c.display.focused && c.caret + delta >= 0 && c.caret + delta <= |c.display.value| ==> c'.caret == c.caret + delta
    ensures !c.display.focused || !c.display.disabled ==>
      c'.caret == Clamp((if c.display.focused && c.display.selStart.Some? then c.display.selStart.value else c.caret) + delta, 0, |c.display.value|)
  {
    var d := c.display;
    var current := if d.focused && d.selStart.Some? then d.selStart.value else c.caret;
    var pos := Clamp(current + delta, 0, |d.value|);
    var c1 := if d.focused && !d.disabled then Calc(SetCaret(d, pos), c.caret) else Calc(d, pos);
    var c2 := RenderCaret(c1);
    if d.disabled then c2
    else Calc(SetCaret(c2.display.(focused := true), c2.caret), c2.caret)
  }

  /** `[×]` to `*` and `[÷]` to `/`. */
  function MapPrettyOperators(s: string): (r: string)
    ensures |r| == |s|
    ensures forall i :: 0 <= i < |s| ==> r[i] == (if s[i] == '×' then '*' else if s[i] == '÷' then '/' else s[i])
  {
    if |s| == 0 then ""
    else [if s[0] == '×' then '*' else if s[0] == '÷' then '/' else s[0]] + MapPrettyOperators(s[1..])
  }

  /** The reference inverse: operators written the way the keypad shows them. */
  function ShowOperators(s: string): (r: string)
    ensures |r| == |s|
    ensures forall i :: 0 <= i < |s| ==> r[i] == (if s[i] == '*' then '×' else if s[i] == '/' then '÷' else s[i])
  {
    if |s| == 0 then ""
    else [if s[0] == '*' then '×' else if s[0] == '/' then '÷' else s[0]] + ShowOperators(s[1..])
  }

  /** Text without pretty symbols passes the mapping unchanged. */
  lemma MapPrettyKeepsPlainText(s: string)
    requires '×' !in s && '÷' !in s
    ensures MapPrettyOperators(s) == s
  {
    var r := MapPrettyOperators(s);
    assert forall i :: 0 <= i < |s| ==> r[i] == s[i];
  }

  /** Mapping pretty symbols back undoes the keypad's display of operators
      for every text that does not itself contain × or ÷. */
  lemma PrettyOperatorsRoundTrip(s: string)
    requires '×' !in s && '÷' !in s
    ensures MapPrettyOperators(ShowOperators(s)) == s
  {
    var r := MapPrettyOperators(ShowOperators(s));
    assert forall i :: 0 <= i < |s| ==> r[i] == s[i];
  }

  /** `\s` in a JavaScript regular expression: the ECMAScript white space
      and line terminator code points. */
  predicate IsJsSpace(ch: char) {
    var n := ch as int;
    n in {0x09, 0x0A, 0x0B, 0x0C, 0x0D, 0x20, 0xA0, 0x1680, 0x2028, 0x2029, 0x202F, 0x205F, 0x3000, 0xFEFF}
    || 0x2000 <= n <= 0x200A
  }

  /** The characters `/^[-+*\/()%().\d\s]+$/` accepts. */
  predicate IsAllowedChar(ch: char) {
    ch in "-+*/()%." || ('0' <= ch <= '9') || IsJsSpace(ch)
  }

  /** sanitize: map the pretty operators back, apply the `N%` rewrite
      (a parameter), and accept the result only when it is non-empty and
      every character is on the whitelist. */
  function Sanitize(expr: string, rewritePercent: string -> string): (r: Option<string>)
    ensures var e := rewritePercent(MapPrettyOperators(expr));
      r.Some? <==> |e| > 0 && forall i :: 0 <= i < |e| ==> IsAllowedChar(e[i])
    ensures r.Some? ==> r.value == rewritePercent(MapPrettyOperators(expr))
    ensures r.Some? ==> '×' !in r.value && '÷' !in r.value && '<' !in r.value
  {
    var e := rewritePercent(MapPrettyOperators(expr));
    if |e| > 0 && forall i :: 0 <= i < |e| ==> IsAllowedChar(e[i]) then Some(e) else None
  }

  /** What the keys of a whitelisted expression write on the display, one
      key per character, is accepted by sanitize as the expression itself
      (with no `N%` rewrite). */
  lemma KeypadExpressionSanitizes(keys: string)
    requires |keys| > 0 && forall i :: 0 <= i < |keys| ==> IsAllowedChar(keys[i])
    ensures Sanitize(Typed(keys), (s: string) => s) == Some(keys)
  {
    WhitelistHasNoPrettyOperators(keys);
    PrettyOperatorsRoundTrip(keys);
  }

  /** Clicking the one-character buttons of a text one by one through the
      corrected click; 'C' is the clear button. */
  function ClickAll(c: Calc, keys: string, fits: Fits): Calc
    decreases |keys|
  {
    if |keys| == 0 then c else ClickAll(Click(c, KeyOf([keys[0]]), fits, ""), keys[1..], fits)
  }

  /** A click never enables or disables the display. */
  lemma ClickKeepsEnabled(c: Calc, key: Key, fits: Fits, evaluated: string)
    ensures Click(c, key, fits, evaluated).display.disabled == c.display.disabled
  {
  }

  /** The same run through the click handler as written, each pressed
      button taking focus from the display before its handler runs. */
  function ClickAllAsWritten(c: Calc, keys: string, fits: Fits): Calc
    decreases |keys|
  {
    if |keys| == 0 then c
    else ClickAllAsWritten(ClickAsWritten(Blur(c), KeyOf([keys[0]]), fits, ""), keys[1..], fits)
  }

  /** From a settled display, a run of clicks through the handler as
      written, the buttons taking focus, ends where the corrected run
      ends. */
  lemma {:induction false} ClicksAsWrittenAgree(c: Calc, keys: string, fits: Fits)
    requires !c.display.disabled && CollapsedAt(c, c.caret) && c.caret <= |c.display.value|
    ensures ClickAllAsWritten(c, keys, fits) == ClickAll(c, keys, fits)
    decreases |keys|
  {
    if |keys| > 0 {
      var key := KeyOf([keys[0]]);
      BlurredClickIsClick(c, key, fits);
      ClickKeepsEnabled(c, key, fits, "");
      ClicksAsWrittenAgree(Click(c, key, fits, ""), keys[1..], fits);
    }
  }

  /** The 'C' button empties the display and puts the caret at its start,
      so a run of clicks that holds it does not type it. */
  lemma ClearButtonClears(c: Calc, fits: Fits)
    ensures Click(c, KeyOf("C"), fits, "").display.value == ""
    ensures Click(c, KeyOf("C"), fits, "").caret == 0
    ensures ClickAll(c, "C", fits).display.value == ""
  {
    assert ClickAll(c, "C", fits) == ClickAll(Click(c, KeyOf("C"), fits, ""), "", fits);
  }

  /** A run of corrected clicks on buttons other than 'C' writes exactly
      the typed text at the caret, in the order pressed, and leaves the caret
      after it. */
  lemma {:induction false} ClicksWriteTyped(c: Calc, keys: string, fits: Fits)
    requires !c.display.disabled && CollapsedAt(c, c.caret) && c.caret <= |c.display.value|
    requires forall s :: fits(s)
    requires 'C' !in keys
    ensures var c' := ClickAll(c, keys, fits);
      && c'.display.value == c.display.value[..c.caret] + Typed(keys) + c.display.value[c.caret..]
      && c'.caret == c.caret + |Typed(keys)|
      && CollapsedAt(c', c'.caret) && !c'.display.disabled
    decreases |keys|
  {
    var v := c.display.value;
    if |keys| == 0 {
      assert v == v[..c.caret] + v[c.caret..];
    } else {
      var t := ShowKey([keys[0]]);
      var c1 := Click(c, Press([keys[0]]), fits, "");
      assert KeyOf([keys[0]]) == Press([keys[0]]) by {
        assert [keys[0]] != "C" && |[keys[0]]| == 1;
      }
      ClickInsertsAtCaret(c, [keys[0]], fits);
      assert 'C' !in keys[1..];
      ClicksWriteTyped(c1, keys[1..], fits);
      assert ClickAll(c, keys, fits) == ClickAll(c1, keys[1..], fits);
      SpliceTwice(v, c.caret, t, c1.display.value, Typed(keys[1..]));
    }
  }

  /** Clicking the buttons of a whitelisted expression on an empty display,
      through the corrected click or through the handler as written with
      the buttons taking focus, leaves text that sanitize accepts as the
      expression itself. */
  lemma KeypadClicksSanitize(keys: string, fits: Fits)
    requires |keys| > 0 && forall i :: 0 <= i < |keys| ==> IsAllowedChar(keys[i])
    requires forall s :: fits(s)
    ensures var c := ClickAll(Calc(Display("", Some(0), Some(0), false, false), 0), keys, fits);
      Sanitize(c.display.value, (s: string) => s) == Some(keys)
    ensures var c := ClickAllAsWritten(Calc(Display("", Some(0), Some(0), false, false), 0), keys, fits);
      Sanitize(c.display.value, (s: string) => s) == Some(keys)
  {
    WhitelistHasNoPrettyOperators(keys);
    ClicksOnEmptyDisplay(keys, fits);
    KeypadExpressionSanitizes(keys);
  }

  /** On an empty display a run of clicks on buttons other than 'C' leaves
      exactly the typed text, through the corrected click and through the
      handler as written with the buttons taking focus. */
  lemma ClicksOnEmptyDisplay(keys: string, fits: Fits)
    requires forall s :: fits(s)
    requires 'C' !in keys
    ensures ClickAll(Calc(Display("", Some(0), Some(0), false, false), 0), keys, fits).display.value == Typed(keys)
    ensures ClickAllAsWritten(Calc(Display("", Some(0), Some(0), false, false), 0), keys, fits).display.value == Typed(keys)
  {
    var c0 := Calc(Display("", Some(0), Some(0), false, false), 0);
    ClicksWriteTyped(c0, keys, fits);
    ClicksAsWrittenAgree(c0, keys, fits);
    assert ""[..0] + Typed(keys) + ""[0..] == Typed(keys);
  }

  /** Writing t at p and then more text right after it writes both at p. */
  lemma SpliceTwice(v: string, p: nat, t: string, w: string, rest: string)
    requires p <= |v| && w == v[..p] + t + v[p..]
    ensures w[..p + |t|] + rest + w[p + |t|..] == v[..p] + (t + rest) + v[p..]
  {
    assert w[..p + |t|] == v[..p] + t;
    assert w[p + |t|..] == v[p..];
  }

  /** A whitelisted text holds neither pretty operator nor the letter C. */
  lemma WhitelistHasNoPrettyOperators(keys: string)
    requires forall i :: 0 <= i < |keys| ==> IsAllowedChar(keys[i])
    ensures '×' !in keys && '÷' !in keys && 'C' !in keys
  {
    assert !IsAllowedChar('×') && !IsAllowedChar('÷') && !IsAllowedChar('C');
  }
}

=== FILE: charts.dfy ===
/** The data every calculator hands to the chart layer (updateCharts in
    js/utils/charts.js): x-axis labels, the invested and returns series, the
    two pie slices and the chart type. Titles, colours and badges are
    presentational and not modelled. */
module Charts {
  import opened Numeric

  /** An x-axis label: `Y<n>` for a year of a growth chart, or 'Total'. */
  datatype Label = Year(n: nat) | Total

  datatype ChartKind = Line | Bar

  datatype ChartData = ChartData(
    labels: seq<Label>,
    investedSeries: seq<real>,
    returnsSeries: seq<real>,
    pie: seq<real>,
    kind: ChartKind)

  /** The chart of a single 'Total' bar: the base stacked under the addition
      floored at zero (`Math.max(0, addition)`), and the same two values as
      pie slices. */
  function TotalBar(base: real, addition: real): (c: ChartData)
    ensures c.labels == [Total] && c.kind == Bar && c.investedSeries == [base]
    ensures |c.returnsSeries| == 1 && 0.0 <= c.returnsSeries[0]
    ensures c.returnsSeries[0] == addition || (addition < 0.0 && c.returnsSeries[0] == 0.0)
    ensures c.pie == [base, c.returnsSeries[0]]
  {
    var shown := Max(0.0, addition);
    ChartData([Total], [base], [shown], [base, shown], Bar)
  }
}

=== FILE: controls.dfy ===
/** The event handlers every calculator controller wires the same way: a
    number field with its range slider (period, rate, tenure), and a
    monetary amount field with its 0..1000 slider. A field is seen through
    its parsed value (`Formatters.Field`); what a handler assigns to a field
    or slider is returned explicitly. */
module Controls {
  import opened Numeric
  import opened Formatters

  /** The bounds a controller passes to both input policies for one field. */
  datatype Bounds = Bounds(lo: real, hi: real)

  /** A field the handlers have settled: blank (still being typed) or
      within its bounds. */
  predicate InBoundsOrBlank(f: Field, b: Bounds) {
    f.None? || b.lo <= f.value <= b.hi
  }

  /** A live input handler that only clamps (the GST fields): the field
      after clampInputIfOutOfRange. */
  function LiveInput(field: Field, b: Bounds): (r: Field)
    ensures b.lo <= b.hi ==> InBoundsOrBlank(r, b)
    ensures r.None? <==> field.None?
    ensures InBoundsOrBlank(field, b) ==> r == field
  {
    AfterWrite(field, ClampInputIfOutOfRange(field, b.lo, b.hi).written)
  }

  /** A number field and its slider after an input event. */
  datatype Synced = Synced(field: Field, slider: Field)

  /** The period/rate input handler: clamp while typing, then move the slider
      to the field's value, or to the slider's minimum when the field does
      not parse. */
  function NumberFieldInput(field: Field, b: Bounds, sliderMin: real): (r: Synced)
    ensures field.None? ==> r.field == field && r.slider == Some(sliderMin)
    ensures field.Some? ==> r.slider == r.field && r.field == Some(LiveClampValue(field.value, b.lo, b.hi))
    ensures field.Some? && b.lo <= b.hi ==> r.field == Some(ClampReal(field.value, b.lo, b.hi))
    ensures field.Some? && b.lo <= b.hi ==> b.lo <= r.slider.value <= b.hi
  {
    var lc := ClampInputIfOutOfRange(field, b.lo, b.hi);
    var field' := AfterWrite(field, lc.written);
    Synced(field', if lc.result.None? then Some(sliderMin) else field')
  }

  /** The blur handler: the field ends up holding the hard-clamped value. */
  function FieldBlur(field: Field, b: Bounds): (r: Field)
    ensures r.Some?
    ensures b.lo <= b.hi ==> b.lo <= r.value <= b.hi
    ensures field.Some? && b.lo <= field.value <= b.hi ==> r == field
  {
    Some(ValidateNumberInput(field, b.lo, b.hi))
  }

  /** An amount field and its slider after an input event; `sliderPos` is
      None when the handler leaves the slider where it was. */
  datatype AmountSynced = AmountSynced(field: Field, sliderPos: Option<int>)

  /** The amount input handler: clamp while typing and, when the text parses,
      move the slider to the position of the clamped amount. */
  function AmountFieldInput(field: Field, b: Bounds, ln: RealLog): (r: AmountSynced)
    requires LogPositiveAboveOne(ln)
    ensures r.sliderPos.None? <==> field.None?
    ensures field.None? ==> r.field == field
    ensures r.sliderPos.Some? ==>
      && r.field == Some(LiveClampValue(field.value, b.lo, b.hi))
      && (b.lo <= b.hi ==> r.field == Some(ClampReal(field.value, b.lo, b.hi)))
      && SliderNormMin <= r.sliderPos.value <= SliderNormMax
      && r.sliderPos.value == SliderPosFromAmount(r.field.value, b.lo, b.hi, ln)
  {
    var lc := ClampInputIfOutOfRange(field, b.lo, b.hi);
    var field' := AfterWrite(field, lc.written);
    match lc.result
    case None => AmountSynced(field', None)
    case Some(clamped) => AmountSynced(field', Some(SliderPosFromAmount(clamped, b.lo, b.hi, ln)))
  }

  /** The amount slider handler: the field gets the nicely rounded amount of
      the slider position (`parseFloat(slider.value) || 0`). */
  function AmountSliderInput(slider: Field, b: Bounds, pow: RealPow): (amount: real)
    ensures ClampPos(OrZero(slider)) <= EarlyZonePos as real ==> 1.0 <= amount
  {
    var raw := AmountFromSliderPos(OrZero(slider), b.lo, b.hi, pow);
    RoundNiceAmount(raw)
  }

  /** Nice rounding leaves every ladder amount as it is. */
  lemma RoundNiceFixesLadder(i: nat)
    requires i <= EarlyZonePos
    ensures RoundNiceAmount(EarlyStep(i)) == EarlyStep(i)
  {
    if 0 < i < EarlyZonePos {
      assert EarlyStep(i) / 500.0 == i as real;
      RoundToWhole(EarlyStep(i), 500.0);
    } else if i == EarlyZonePos {
      RoundToWhole(EarlyStep(i), 1000.0);
    }
  }

  /** Moving an amount slider onto ladder tick i writes an amount that, typed
      back into the field, puts the slider on tick i again. */
  lemma SliderTickRoundTrip(i: nat, b: Bounds, pow: RealPow, ln: RealLog)
    requires i <= EarlyZonePos && b.lo <= 1.0 && EarlyStep(EarlyZonePos) <= b.hi
    requires LogPositiveAboveOne(ln)
    ensures var amount := AmountSliderInput(Some(i as real), b, pow);
      && amount == EarlyStep(i)
      && AmountFieldInput(Some(amount), b, ln) == AmountSynced(Some(amount), Some(i))
  {
    assert Round(i as real) == i;
    var raw := AmountFromSliderPos(i as real, b.lo, b.hi, pow);
    assert raw == EarlyStep(i);
    RoundNiceFixesLadder(i);
    LadderRoundTrip(i, b.lo, b.hi, pow, ln);
  }
}

=== FILE: emi.dfy ===
/** js/calculators/emi-calculator.js: the equated monthly instalment of a
    loan, the total payment and interest, the principal/interest chart, the
    input bounds and the tenure field's slider sync. */
module EmiCalculator {
  import opened Numeric
  import opened Formatters
  import opened Controls
  import opened Charts

  const AmountBounds: Bounds := Bounds(1.0, 5000000000.0)
  const RateBounds: Bounds := Bounds(1.0, 100.0)
  const TenureBounds: Bounds := Bounds(1.0, 100.0)

  /** The instalment for principal `amount`, monthly rate r and n months:
      `amount * r * (1+r)^n / ((1+r)^n - 1)`. */
  function Instalment(amount: real, r: real, n: nat): real
    requires 0.0 < r && 1 <= n
  {
    var x := Pow(1.0 + r, n);
    PowAboveOne(1.0 + r, n);
    amount * r * x / (x - 1.0)
  }

  /** The independent reference: the outstanding balance after k monthly
      instalments of e, each month charging interest r on the balance and
      then deducting the instalment. */
  function Outstanding(amount: real, r: real, e: real, k: nat): real {
    if k == 0 then amount else Outstanding(amount, r, e, k - 1) * (1.0 + r) - e
  }

  /** The outstanding balance in closed form (multiplied through by r). */
  lemma {:induction false} OutstandingClosedForm(amount: real, r: real, e: real, k: nat)
    ensures r * Outstanding(amount, r, e, k) == amount * r * Pow(1.0 + r, k) - e * (Pow(1.0 + r, k) - 1.0)
  {
    if k > 0 {
      OutstandingClosedForm(amount, r, e, k - 1);
      var p := Pow(1.0 + r, k - 1);
      var b := Outstanding(amount, r, e, k - 1);
      assert Pow(1.0 + r, k) == (1.0 + r) * p;
      assert r * (b * (1.0 + r) - e) == (1.0 + r) * (r * b) - r * e;
      assert (1.0 + r) * (amount * r * p - e * (p - 1.0)) - r * e
          == amount * r * ((1.0 + r) * p) - e * ((1.0 + r) * p - 1.0);
    }
  }

  /** Paying the instalment every month retires the loan exactly at the end
      of the tenure. */
  lemma InstalmentRetiresLoan(amount: real, r: real, n: nat)
    requires 0.0 < r && 1 <= n
    ensures Outstanding(amount, r, Instalment(amount, r, n), n) == 0.0
  {
    var x := Pow(1.0 + r, n);
    PowAboveOne(1.0 + r, n);
    var e := Instalment(amount, r, n);
    assert e * (x - 1.0) == amount * r * x;
    OutstandingClosedForm(amount, r, e, n);
    MulCancel(r, Outstanding(amount, r, e, n), 0.0);
  }

  /** Compound growth outpaces the instalment count: (1+r)^n - 1 < n r (1+r)^n
      for every positive rate and tenure. */
  lemma {:induction false} GrowthBelowInstalmentCount(r: real, n: nat)
    requires 0.0 < r && 1 <= n
    ensures Pow(1.0 + r, n) - 1.0 < n as real * r * Pow(1.0 + r, n)
  {
    var x := Pow(1.0 + r, n);
    if n == 1 {
      assert Pow(1.0 + r, 0) == 1.0;
      assert x == 1.0 + r;
      MulPositive(r, 1.0 + r);
      assert n as real * r * x == r * (1.0 + r);
      assert r * (1.0 + r) == r + r * r;
    } else {
      GrowthBelowInstalmentCount(r, n - 1);
      var p := Pow(1.0 + r, n - 1);
      PowPositive(1.0 + r, n - 1);
      GrowthStep(r, p, (n - 1) as real);
      assert x == (1.0 + r) * p;
      assert n as real == (n - 1) as real + 1.0;
    }
  }

  /** One month of the induction above: f(k) = k r p - p + 1 grows by
      (p r)((k+1) r) when p is multiplied by 1 + r. */
  lemma GrowthStep(r: real, p: real, k: real)
    requires 0.0 < r && 0.0 < p && 1.0 <= k
    requires p - 1.0 < k * r * p
    ensures (1.0 + r) * p - 1.0 < (k + 1.0) * r * ((1.0 + r) * p)
  {
    MulPositive(p, r);
    MulPositive(k + 1.0, r);
    MulPositive(p * r, (k + 1.0) * r);
    assert (k + 1.0) * r * ((1.0 + r) * p) - (1.0 + r) * p + 1.0
        == (k * r * p - p + 1.0) + (p * r) * ((k + 1.0) * r);
  }

  datatype EmiSummary = EmiSummary(instalment: real, totalPayment: real, totalInterest: real)

  /** The figures calculateEMI shows for a tenure in whole years. The
      instalment is the one that retires the loan; the borrower pays back
      `months` instalments, and with a positive principal the interest is
      positive. */
  function EmiSummaryOf(amount: real, rate: real, tenure: nat): (s: EmiSummary)
    requires 0.0 < rate && 1 <= tenure
    ensures Outstanding(amount, rate / 100.0 / 12.0, s.instalment, tenure * 12) == 0.0
    ensures s.totalPayment == s.instalment * (tenure * 12) as real
    ensures amount + s.totalInterest == s.totalPayment
    ensures 0.0 < amount ==> 0.0 < s.totalInterest
  {
    var r := rate / 100.0 / 12.0;
    var months := tenure * 12;
    var e := Instalment(amount, r, months);
    InstalmentRetiresLoan(amount, r, months);
    assert 0.0 < amount ==> amount < e * months as real by {
      if 0.0 < amount {
        InterestPositive(amount, r, months);
      }
    }
    EmiSummary(e, e * months as real, e * months as real - amount)
  }

  /** The instalments of a positive loan add up to more than the principal. */
  lemma InterestPositive(amount: real, r: real, n: nat)
    requires 0.0 < amount && 0.0 < r && 1 <= n
    ensures amount < Instalment(amount, r, n) * n as real
  {
    var x := Pow(1.0 + r, n);
    PowAboveOne(1.0 + r, n);
    GrowthBelowInstalmentCount(r, n);
    var e := Instalment(amount, r, n);
    assert e * (x - 1.0) == amount * r * x;
    MulStrictlyMonotone(amount, x - 1.0, n as real * r * x);
    assert (e * n as real) * (x - 1.0) == amount * (n as real * r * x);
    MulStrictlyMonotone(x - 1.0, amount, e * n as real);
  }

  datatype EmiView = EmiView(summary: EmiSummary, chart: ChartData)

  /** calculateEMI: nothing when a field reads as zero or less; otherwise the
      summary and a single 'Total' bar of principal under interest. */
  function CalculateEmi(amount: real, rate: real, tenure: nat): (v: Option<EmiView>)
    ensures v.Some? <==> 0.0 < amount && 0.0 < rate && 1 <= tenure
    ensures v.Some? ==>
      && v.value.summary == EmiSummaryOf(amount, rate, tenure)
      && v.value.chart.labels == [Total] && v.value.chart.kind == Bar
      && v.value.chart.investedSeries == [amount]
      && v.value.chart.returnsSeries == [v.value.summary.totalInterest]
      && v.value.chart.pie == [amount, v.value.summary.totalInterest]
  {
    if amount <= 0.0 || rate <= 0.0 || tenure < 1 then None
    else
      var s := EmiSummaryOf(amount, rate, tenure);
      Some(EmiView(s, TotalBar(amount, s.totalInterest)))
  }

  /** The tenure input handler as written: after clamping the tenure field it
      assigns the rate field's value to the tenure slider. */
  function TenureInputAsWritten(tenure: Field, rate: Field, sliderMin: real): (r: Synced)
    ensures tenure.None? ==> r == Synced(tenure, Some(sliderMin))
    ensures tenure.Some? ==> r.field == Some(ClampReal(tenure.value, TenureBounds.lo, TenureBounds.hi)) && r.slider == rate
  {
    var lc := ClampInputIfOutOfRange(tenure, TenureBounds.lo, TenureBounds.hi);
    Synced(AfterWrite(tenure, lc.written), if lc.result.None? then Some(sliderMin) else rate)
  }

  /** Typing a 20-year tenure while the rate reads 8.5 assigns 8.5 to the
      tenure slider instead of 20. */
  lemma TenureSliderFollowsRate()
    ensures var s := TenureInputAsWritten(Some(20.0), Some(8.5), 1.0);
      s.field == Some(20.0) && s.slider == Some(8.5) && s.slider != s.field
  {
  }

  /** The tenure input handler as its siblings for period and rate behave: the
      slider follows the clamped tenure, or goes to its minimum when the
      field does not parse. */
  function TenureInput(tenure: Field, sliderMin: real): (r: Synced)
    ensures tenure.Some? ==> r.slider == r.field && r.field.Some? && TenureBounds.lo <= r.field.value <= TenureBounds.hi
    ensures tenure.Some? && TenureBounds.lo <= tenure.value <= TenureBounds.hi ==> r.field == tenure
    ensures tenure.None? ==> r == Synced(tenure, Some(sliderMin))
  {
    NumberFieldInput(tenure, TenureBounds, sliderMin)
  }

  /** Whatever the rate field holds, the corrected handler and the one as
      written agree on the field and on a blank tenure, and differ on the
      slider exactly when the rate differs from the clamped tenure. */
  lemma TenureHandlersDiffer(tenure: Field, rate: Field, sliderMin: real)
    ensures TenureInput(tenure, sliderMin).field == TenureInputAsWritten(tenure, rate, sliderMin).field
    ensures TenureInput(tenure, sliderMin) == TenureInputAsWritten(tenure, rate, sliderMin)
        <==> tenure.None? || rate == TenureInput(tenure, sliderMin).field
  {
  }

  /** The input and blur handlers of the three fields settle them: a field
      is left blank (still being typed) or within its bounds, the rate
      slider and the corrected tenure slider follow a parsed field, and a
      blur always leaves a number within the bounds. */
  lemma HandlersSettleFields(amountField: Field, tenureField: Field, rateField: Field, sliderMin: real, ln: RealLog)
    requires LogPositiveAboveOne(ln)
    ensures InBoundsOrBlank(AmountFieldInput(amountField, AmountBounds, ln).field, AmountBounds)
    ensures InBoundsOrBlank(TenureInputAsWritten(tenureField, rateField, sliderMin).field, TenureBounds)
    ensures InBoundsOrBlank(TenureInput(tenureField, sliderMin).field, TenureBounds)
    ensures InBoundsOrBlank(NumberFieldInput(rateField, RateBounds, sliderMin).field, RateBounds)
    ensures tenureField.Some? ==> TenureInput(tenureField, sliderMin).slider == TenureInput(tenureField, sliderMin).field
    ensures rateField.Some? ==> NumberFieldInput(rateField, RateBounds, sliderMin).slider == NumberFieldInput(rateField, RateBounds, sliderMin).field
    ensures InBoundsOrBlank(FieldBlur(amountField, AmountBounds), AmountBounds) && FieldBlur(amountField, AmountBounds).Some?
    ensures InBoundsOrBlank(FieldBlur(tenureField, TenureBounds), TenureBounds) && FieldBlur(tenureField, TenureBounds).Some?
    ensures InBoundsOrBlank(FieldBlur(rateField, RateBounds), RateBounds) && FieldBlur(rateField, RateBounds).Some?
  {
  }
}

=== FILE: formatters.dfy ===
/** js/utils/formatters.js: the two numeric input policies, the slider
    mapping between a position in 0..1000 and a monetary amount, the "nice"
    rounding of slider amounts, and the choice of unit in the compact Indian
    number format. */
module Formatters {
  import opened Numeric

  // ---------------------------------------------------------------------
  // Numeric input policies
  // ---------------------------------------------------------------------

  /** A number input as the handlers see it: parseFloat of its text, None
      when that gives NaN (empty or partial text). */
  type Field = Option<real>

  /** `parseFloat(field.value) || 0`, the way every calculate function reads
      its inputs. */
  function OrZero(f: Field): (r: real)
    ensures f.None? ==> r == 0.0
    ensures f.Some? ==> r == f.value
  {
    f.GetOr(0.0)
  }

  /** Distance between two reals. */
  function Dist(x: real, y: real): real {
    Abs(x - y)
  }

  /** The clamp both policies apply: first raise to min, then lower to max. */
  function ClampReal(v: real, min: real, max: real): (r: real)
    ensures min <= max ==> min <= r <= max
    ensures min <= max ==> forall x :: min <= x <= max ==> Dist(r, v) <= Dist(x, v)
    ensures max < min ==> r == max
  {
    var raised := if v < min then min else v;
    if raised > max then max else raised
  }

  /** validateNumberInput, the hard clamp applied on blur. An unparseable
      field counts as min. The handler writes the result back into the field,
      so after a blur the field holds exactly this value. */
  function ValidateNumberInput(field: Field, min: real, max: real): (r: real)
    ensures min <= max ==> min <= r <= max
    ensures field.None? && min <= max ==> r == min
    ensures field.Some? && min <= field.value <= max ==> r == field.value
    ensures field.Some? ==> r == ClampReal(field.value, min, max)
  {
    var v := if field.None? then min else field.value;
    ClampReal(v, min, max)
  }

  /** What clampInputIfOutOfRange reports (None for `null`) and what it writes
      back into the field (None when it leaves the text as typed). */
  datatype LiveClamp = LiveClamp(result: Option<real>, written: Option<real>)

  /** The field after a handler wrote `written` into it, if anything. */
  function AfterWrite(field: Field, written: Option<real>): Field {
    if written.Some? then written else field
  }

  /** The clamp clampInputIfOutOfRange applies: both tests look at the typed
      value itself, the upper one last, so with crossed bounds a value below
      both goes to min and one above max goes to max. For ordered bounds it
      is the hard clamp of validateNumberInput. */
  function LiveClampValue(v: real, min: real, max: real): (r: real)
    ensures min <= max ==> r == ClampReal(v, min, max)
    ensures r == v <==> min <= v <= max
    ensures max < v ==> r == max
    ensures v < min && v <= max ==> r == min
  {
    if v > max then max else if v < min then min else v
  }

  /** clampInputIfOutOfRange, the lenient clamp applied while typing. */
  function ClampInputIfOutOfRange(field: Field, min: real, max: real): (r: LiveClamp)
    ensures r.result.None? <==> field.None?
    ensures field.None? ==> r.written.None?
    ensures r.result.Some? ==> r.result.value == LiveClampValue(field.value, min, max)
    ensures r.result.Some? && min <= max ==> r.result.value == ClampReal(field.value, min, max)
    ensures r.written.Some? <==> r.result.Some? && !(min <= field.value <= max)
    ensures r.written.Some? ==> r.written == r.result
    ensures r.result.Some? ==> AfterWrite(field, r.written) == r.result
  {
    match field
    case None => LiveClamp(None, None)
    case Some(v) =>
      var clamped := LiveClampValue(v, min, max);
      LiveClamp(Some(clamped), if clamped != v then Some(clamped) else None)
  }

  /** With crossed bounds the live clamp and the hard clamp part ways: typing
      3 into a field with min 10 and max 5 leaves 10 while typing, and a blur
      then turns it into 5. */
  lemma CrossedBoundsDisagree()
    ensures ClampInputIfOutOfRange(Some(3.0), 10.0, 5.0) == LiveClamp(Some(10.0), Some(10.0))
    ensures ValidateNumberInput(Some(3.0), 10.0, 5.0) == 5.0
  {
  }

  /** Blurring a field the live clamp has just handled changes nothing the
      live clamp accepted: both policies agree on every parseable input. */
  lemma BlurAgreesWithLiveClamp(field: Field, min: real, max: real)
    requires min <= max
    ensures var lc := ClampInputIfOutOfRange(field, min, max);
      lc.result.Some? ==> ValidateNumberInput(AfterWrite(field, lc.written), min, max) == lc.result.value
    ensures var lc := ClampInputIfOutOfRange(field, min, max);
      lc.result.None? ==> ValidateNumberInput(AfterWrite(field, lc.written), min, max) == min
  {
    var lc := ClampInputIfOutOfRange(field, min, max);
    if lc.result.Some? {
      var c := lc.result.value;
      assert min <= c <= max;
      assert AfterWrite(field, lc.written) == Some(c);
    }
  }

  // ---------------------------------------------------------------------
  // Slider mapping
  // ---------------------------------------------------------------------

  const SliderNormMin: int := 0
  const SliderNormMax: int := 1000
  /** The last slider position of the ladder zone: one tick per early step. */
  const EarlyZonePos: nat := 20

  /** EARLY_STEPS[i]: 1, then 500, 1000, ..., 10000 (21 entries). */
  function EarlyStep(i: nat): real
    requires i <= EarlyZonePos
  {
    if i == 0 then 1.0 else 500.0 * i as real
  }

  /** `Math.max(minA, EARLY_STEPS[i])`: the amount ladder tick i stands for. */
  function LadderAmount(minA: real, i: nat): real
    requires i <= EarlyZonePos
  {
    Max(minA, EarlyStep(i))
  }

  /** The slider position clamped into [SLIDER_NORM_MIN, SLIDER_NORM_MAX]. */
  function ClampPos(pos: real): real {
    Min(SliderNormMax as real, Max(SliderNormMin as real, pos))
  }

  /** The amount clamped into [max(1, minAmount), maxAmount]. */
  function ClampAmount(amount: real, minAmount: real, maxAmount: real): real {
    Min(maxAmount, Max(Max(1.0, minAmount), amount))
  }

  /** The top of the ladder zone in amounts (typically 10000). */
  function LastEarly(minAmount: real): real {
    Max(Max(1.0, minAmount), EarlyStep(EarlyZonePos))
  }

  /** `Math.pow` with a real exponent, left uninterpreted. */
  type RealPow = (real, real) -> real
  /** `Math.log`, left uninterpreted. */
  type RealLog = real -> real

  /** The one fact about Math.log the inverse mapping needs: it is positive
      above one, so the division by log(ratio) is defined. */
  ghost predicate LogPositiveAboveOne(ln: RealLog) {
    forall x :: 1.0 < x ==> 0.0 < ln(x)
  }

  /** amountFromSliderPos. The ladder zone (positions up to 20) is exact; the
      exponential zone goes through the uninterpreted `pow`. */
  function AmountFromSliderPos(pos: real, minAmount: real, maxAmount: real, pow: RealPow): (r: real)
    ensures ClampPos(pos) <= EarlyZonePos as real ==> 1.0 <= r && minAmount <= r
    ensures ClampPos(pos) <= EarlyZonePos as real ==>
      var k := Round(ClampPos(pos));
      0 <= k <= EarlyZonePos as int && r == LadderAmount(Max(1.0, minAmount), k)
  {
    var minA := Max(1.0, minAmount);
    var p := ClampPos(pos);
    if p <= EarlyZonePos as real then
      var idx := MaxInt(0, MinInt(EarlyZonePos, Round(p)));
      LadderAmount(minA, idx)
    else
      var startVal := Max(minA, EarlyStep(EarlyZonePos));
      var span := (SliderNormMax - EarlyZonePos) as real;
      var t2 := (p - EarlyZonePos as real) / span;
      var ratio := maxAmount / startVal;
      startVal * pow(ratio, t2)
  }

  /** In the ladder zone, moving the slider right never lowers the amount. */
  lemma LadderMonotone(p1: real, p2: real, minAmount: real, maxAmount: real, pow: RealPow)
    requires p1 <= p2 && ClampPos(p2) <= EarlyZonePos as real
    ensures AmountFromSliderPos(p1, minAmount, maxAmount, pow)
         <= AmountFromSliderPos(p2, minAmount, maxAmount, pow)
  {
    var q1, q2 := ClampPos(p1), ClampPos(p2);
    assert q1 <= q2;
    assert Round(q1) <= Round(q2);
  }

  /** k is the tick sliderPosFromAmount picks for amount a: the greatest
      ladder index whose amount a reaches (0 when it reaches none). */
  ghost predicate IsLadderIndex(a: real, minA: real, k: int) {
    && 0 <= k <= EarlyZonePos as int
    && (k == 0 || LadderAmount(minA, k) <= a)
    && forall j :: k < j <= EarlyZonePos as int ==> a < LadderAmount(minA, j)
  }

  lemma LadderIndexUnique(a: real, minA: real, k1: int, k2: int)
    requires IsLadderIndex(a, minA, k1) && IsLadderIndex(a, minA, k2)
    ensures k1 == k2
  {
  }

  /** The loop of sliderPosFromAmount's ladder branch: `idx` is the last index
      whose step `a` reached; the scan stops at the first step it does not. */
  function ScanLadder(a: real, minA: real, i: nat, idx: nat): (k: nat)
    requires i <= EarlyZonePos + 1 && idx <= EarlyZonePos
    requires i == 0 ==> idx == 0
    requires i > 0 ==> idx == i - 1 && LadderAmount(minA, idx) <= a
    ensures IsLadderIndex(a, minA, k)
    decreases EarlyZonePos + 1 - i
  {
    if i == EarlyZonePos + 1 then idx
    else if a >= LadderAmount(minA, i) then ScanLadder(a, minA, i + 1, i)
    else idx
  }

  /** sliderPosFromAmount. In the ladder zone the result is the ladder index
      of the clamped amount; in every zone it is a legal slider position. */
  function SliderPosFromAmount(amount: real, minAmount: real, maxAmount: real, ln: RealLog): (pos: int)
    requires LogPositiveAboveOne(ln)
    ensures SliderNormMin <= pos <= SliderNormMax
    ensures ClampAmount(amount, minAmount, maxAmount) <= LastEarly(minAmount) ==>
      IsLadderIndex(ClampAmount(amount, minAmount, maxAmount), Max(1.0, minAmount), pos)
  {
    var minA := Max(1.0, minAmount);
    var a := ClampAmount(amount, minAmount, maxAmount);
    var lastEarly := LastEarly(minAmount);
    if a <= lastEarly then
      var idx := ScanLadder(a, minA, 0, 0);
      MinInt(SliderNormMax, MaxInt(SliderNormMin, idx))
    else
      var p := ExponentialZonePos(a, lastEarly, maxAmount, ln);
      MinInt(SliderNormMax, MaxInt(SliderNormMin, p))
  }

  /** The unclamped position of sliderPosFromAmount's exponential branch:
      `round(20 + 980 * log(a / lastEarly) / log(maxAmount / lastEarly))`. */
  function ExponentialZonePos(a: real, lastEarly: real, maxAmount: real, ln: RealLog): int
    requires LogPositiveAboveOne(ln) && 0.0 < lastEarly < maxAmount
  {
    var span := (SliderNormMax - EarlyZonePos) as real;
    var ratio := maxAmount / lastEarly;
    assert 1.0 < ratio by {
      assert ratio * lastEarly == maxAmount;
      if ratio <= 1.0 {
        MulMonotone(lastEarly, ratio, 1.0);
      }
    }
    assert 0.0 < ln(ratio);
    var t2 := ln(a / lastEarly) / ln(ratio);
    Round(EarlyZonePos as real + t2 * span)
  }

  /** The ladder zone is exactly invertible: with the usual minimum of 1 and a
      maximum past the ladder, every tick 0..20 maps to an amount that maps
      back to the same tick. */
  lemma LadderRoundTrip(i: nat, minAmount: real, maxAmount: real, pow: RealPow, ln: RealLog)
    requires i <= EarlyZonePos && minAmount <= 1.0 && EarlyStep(EarlyZonePos) <= maxAmount
    requires LogPositiveAboveOne(ln)
    ensures SliderPosFromAmount(AmountFromSliderPos(i as real, minAmount, maxAmount, pow), minAmount, maxAmount, ln) == i
  {
    var amt := AmountFromSliderPos(i as real, minAmount, maxAmount, pow);
    assert Round(i as real) == i;
    assert amt == EarlyStep(i);
    assert ClampAmount(amt, minAmount, maxAmount) == amt;
    var pos := SliderPosFromAmount(amt, minAmount, maxAmount, ln);
    assert IsLadderIndex(amt, 1.0, i);
    LadderIndexUnique(amt, 1.0, pos, i);
  }

  /** Amount -> tick -> amount lands at most one ladder step below the
      (clamped) amount: the tick's amount is reached, the next tick's is not. */
  lemma LadderWithinOneStep(amount: real, minAmount: real, maxAmount: real, pow: RealPow, ln: RealLog)
    requires LogPositiveAboveOne(ln) && Max(1.0, minAmount) <= maxAmount
    requires ClampAmount(amount, minAmount, maxAmount) <= LastEarly(minAmount)
    ensures var a := ClampAmount(amount, minAmount, maxAmount);
      var p := SliderPosFromAmount(amount, minAmount, maxAmount, ln);
      && AmountFromSliderPos(p as real, minAmount, maxAmount, pow) <= a
      && (p == EarlyZonePos as int || a < AmountFromSliderPos((p + 1) as real, minAmount, maxAmount, pow))
  {
    var a := ClampAmount(amount, minAmount, maxAmount);
    var p := SliderPosFromAmount(amount, minAmount, maxAmount, ln);
    assert Round(p as real) == p;
    assert AmountFromSliderPos(p as real, minAmount, maxAmount, pow) == LadderAmount(Max(1.0, minAmount), p);
    if p < EarlyZonePos as int {
      assert Round((p + 1) as real) == p + 1;
      assert AmountFromSliderPos((p + 1) as real, minAmount, maxAmount, pow) == LadderAmount(Max(1.0, minAmount), p + 1);
    }
  }

  // ---------------------------------------------------------------------
  // Nice rounding
  // ---------------------------------------------------------------------

  /** `Math.round(n / step) * step`: the multiple of step nearest to n. */
  function RoundTo(n: real, step: real): (r: real)
    requires 0.0 < step
    ensures IsWhole(r / step)
    ensures n - step / 2.0 < r <= n + step / 2.0
  {
    var k := Round(n / step);
    MulDivCancel(k, step);
    RoundBoundsScale(n, k as real, step);
    k as real * step
  }

  lemma MulDivCancel(k: int, s: real)
    requires 0.0 < s
    ensures (k as real * s) / s == k as real
    ensures IsWhole((k as real * s) / s)
  {
  }

  lemma RoundBoundsScale(n: real, k: real, s: real)
    requires 0.0 < s && n / s - 0.5 < k <= n / s + 0.5
    ensures n - s / 2.0 < k * s <= n + s / 2.0
  {
    var x := n / s;
    assert s * x == n;
    assert s * k == k * s;
    assert n - s / 2.0 < s * k by {
      MulStrictlyMonotone(s, x - 0.5, k);
      assert s * (x - 0.5) == n - s / 2.0;
    }
    assert s * k <= n + s / 2.0 by {
      MulMonotone(s, k, x + 0.5);
      assert s * (x + 0.5) == n + s / 2.0;
    }
  }

  /** The rounding granularity for an amount of 500 or more, by band. */
  function NiceStep(n: real): real {
    if n < 10000.0 then 500.0
    else if n < 100000.0 then 1000.0
    else if n < 1000000.0 then 5000.0
    else if n < 10000000.0 then 10000.0
    else if n < 100000000.0 then 50000.0
    else if n < 1000000000.0 then 100000.0
    else 500000.0
  }

  /** roundNiceAmount: 1 below 500, else the nearest multiple of the band's
      step, halves rounded up. */
  function RoundNiceAmount(n: real): (r: real)
    ensures n < 500.0 ==> r == 1.0
    ensures 500.0 <= n ==> IsWhole(r / NiceStep(n))
    ensures 500.0 <= n ==> n - NiceStep(n) / 2.0 < r <= n + NiceStep(n) / 2.0
  {
    if n < 500.0 then 1.0
    else if n < 10000.0 then RoundTo(n, 500.0)
    else if n < 100000.0 then RoundTo(n, 1000.0)
    else if n < 1000000.0 then RoundTo(n, 5000.0)
    else if n < 10000000.0 then RoundTo(n, 10000.0)
    else if n < 100000000.0 then RoundTo(n, 50000.0)
    else if n < 1000000000.0 then RoundTo(n, 100000.0)
    else RoundTo(n, 500000.0)
  }

  /** Rounding an exact multiple of the step gives it back. */
  lemma RoundToWhole(r: real, s: real)
    requires 0.0 < s && IsWhole(r / s)
    ensures RoundTo(r, s) == r
  {
    var m := r / s;
    assert Round(m) == m.Floor;
    assert m * s == r;
  }

  /** A multiple of the step within half a step of a point at or above the
      multiple lo is itself at least lo. */
  lemma StaysAbove(n: real, r: real, s: real, lo: real)
    requires 0.0 < s && lo <= n
    requires IsWhole(lo / s) && IsWhole(r / s) && n - s / 2.0 < r
    ensures lo <= r
  {
    var x, l := r / s, lo / s;
    assert s * x == r by { DivCancels(r, s); }
    assert s * l == lo by { DivCancels(lo, s); }
    assert l - 0.5 < x by {
      assert lo + -0.5 * s < r;
      DivStrictlyMonotone(lo + -0.5 * s, r, s);
      HalfStepQuotient(lo, s, l, -0.5);
    }
    WholeGap(l, x);
    MulMonotone(s, l, x);
    calc {
      lo;
      == s * l;
      <= s * x;
      == r;
    }
  }

  /** A multiple of the step within half a step of a point below the
      multiple hi is at most hi. */
  lemma StaysBelow(n: real, r: real, s: real, hi: real)
    requires 0.0 < s && n < hi
    requires IsWhole(hi / s) && IsWhole(r / s) && r <= n + s / 2.0
    ensures r <= hi
  {
    var x, h := r / s, hi / s;
    assert s * x == r by { DivCancels(r, s); }
    assert s * h == hi by { DivCancels(hi, s); }
    assert x < h + 0.5 by {
      assert r < hi + 0.5 * s;
      DivStrictlyMonotone(r, hi + 0.5 * s, s);
      HalfStepQuotient(hi, s, h, 0.5);
    }
    WholeGap(x, h);
    MulMonotone(s, x, h);
    calc {
      r;
      == s * x;
      <= s * h;
      == hi;
    }
  }

  lemma DivCancels(a: real, s: real)
    requires s != 0.0
    ensures s * (a / s) == a
  {
  }

  /** (a + d * s) / s == a / s + d */
  lemma HalfStepQuotient(a: real, s: real, q: real, d: real)
    requires 0.0 < s && s * q == a
    ensures (a + d * s) / s == q + d
  {
    assert s * (q + d) == a + d * s;
    DivOfProduct(a + d * s, s, q + d);
  }

  /** Two whole numbers less than one apart in one direction are ordered. */
  lemma WholeGap(l: real, x: real)
    requires IsWhole(l) && IsWhole(x) && l - 0.5 < x
    ensures l <= x
  {
    var a, b := l.Floor, x.Floor;
    assert a as real - 0.5 < b as real;
    assert a < b + 1;
  }

  lemma DivStrictlyMonotone(a: real, b: real, s: real)
    requires 0.0 < s && a < b
    ensures a / s < b / s
  {
  }

  lemma DivMonotone(a: real, b: real, s: real)
    requires 0.0 < s && a <= b
    ensures a / s <= b / s
  {
  }

  /** Division undoes multiplication by a non-zero factor. */
  lemma DivOfProduct(a: real, s: real, y: real)
    requires s != 0.0 && s * y == a
    ensures a / s == y
  {
  }

  /** Below one billion, rounding stays within or at the top of one band. */
  lemma BandIdempotent(n: real, s: real, lo: real, hi: real)
    requires 0.0 < s && 500.0 <= lo <= n < hi
    requires IsWhole(lo / s) && IsWhole(hi / s) && IsWhole(hi / NiceStep(hi))
    requires forall x :: lo <= x < hi ==> NiceStep(x) == s
    ensures RoundNiceAmount(RoundNiceAmount(n)) == RoundNiceAmount(n)
  {
    RoundNiceByStep(n);
    var r := RoundTo(n, s);
    StaysAbove(n, r, s, lo);
    StaysBelow(n, r, s, hi);
    RoundNiceByStep(r);
    if r < hi {
      RoundToWhole(r, s);
    } else {
      RoundToWhole(r, NiceStep(r));
    }
  }

  lemma RoundNiceByStep(x: real)
    requires 500.0 <= x
    ensures RoundNiceAmount(x) == RoundTo(x, NiceStep(x))
  {
  }

  /** Nice rounding is idempotent: a rounded amount is already nice, even
      when rounding carried it up to the next band. */
  lemma RoundNiceIdempotent(n: real)
    ensures RoundNiceAmount(RoundNiceAmount(n)) == RoundNiceAmount(n)
  {
    if n < 500.0 {
    } else if n < 1000000.0 {
      LowBandsIdempotent(n);
    } else if n < 1000000000.0 {
      HighBandsIdempotent(n);
    } else {
      TopBandIdempotent(n);
    }
  }

  lemma LowBandsIdempotent(n: real)
    requires 500.0 <= n < 1000000.0
    ensures RoundNiceAmount(RoundNiceAmount(n)) == RoundNiceAmount(n)
  {
    if n < 10000.0 {
      BandIdempotent(n, 500.0, 500.0, 10000.0);
    } else if n < 100000.0 {
      BandIdempotent(n, 1000.0, 10000.0, 100000.0);
    } else {
      BandIdempotent(n, 5000.0, 100000.0, 1000000.0);
    }
  }

  lemma HighBandsIdempotent(n: real)
    requires 1000000.0 <= n < 1000000000.0
    ensures RoundNiceAmount(RoundNiceAmount(n)) == RoundNiceAmount(n)
  {
    if n < 10000000.0 {
      BandIdempotent(n, 10000.0, 1000000.0, 10000000.0);
    } else if n < 100000000.0 {
      BandIdempotent(n, 50000.0, 10000000.0, 100000000.0);
    } else {
      BandIdempotent(n, 100000.0, 100000000.0, 1000000000.0);
    }
  }

  lemma TopBandIdempotent(n: real)
    requires 1000000000.0 <= n
    ensures RoundNiceAmount(RoundNiceAmount(n)) == RoundNiceAmount(n)
  {
    RoundNiceByStep(n);
    var r := RoundTo(n, 500000.0);
    StaysAbove(n, r, 500000.0, 1000000000.0);
    RoundNiceByStep(r);
    RoundToWhole(r, 500000.0);
  }

  // ---------------------------------------------------------------------
  // Compact Indian format: choice of unit
  // ---------------------------------------------------------------------

  /** A JavaScript number: a finite real, or NaN / an infinity. */
  datatype Number = Finite(value: real) | NonFinite

  /** The thresholds of the units formatIndianCompact tries, largest first;
      each is a hundred times the next. */
  const Thresholds: seq<real> := [
    100000000000000000.0,
    1000000000000000.0,
    10000000000000.0,
    100000000000.0,
    1000000000.0,
    10000000.0,
    100000.0,
    1000.0
  ]

  /** The names shown with the units, in the same order. */
  const UnitNames: seq<string> := ["Shankh", "Padma", "Neel", "Kharab", "Arab", "Crore", "Lakh", "Thousand"]

  /** The unit loop of formatIndianCompact from index i on: the first unit
      whose threshold n reaches. */
  function FirstUnitAtMost(n: real, i: nat): (k: Option<nat>)
    requires i <= |Thresholds|
    ensures k.Some? ==> i <= k.value < |Thresholds| && Thresholds[k.value] <= n
    ensures k.Some? ==> forall j :: i <= j < k.value ==> n < Thresholds[j]
    ensures k.None? ==> forall j :: i <= j < |Thresholds| ==> n < Thresholds[j]
    decreases |Thresholds| - i
  {
    if i == |Thresholds| then None
    else if n >= Thresholds[i] then Some(i)
    else FirstUnitAtMost(n, i + 1)
  }

  /** Every unit is positive and a hundred times the next. */
  lemma UnitScale(k: nat)
    requires k < |Thresholds|
    ensures 1000.0 <= Thresholds[k]
    ensures k == |Thresholds| - 1 ==> Thresholds[k] == 1000.0
    ensures 0 < k ==> Thresholds[k - 1] == 100.0 * Thresholds[k]
  {
  }

  /** `n / u.v` for the unit the loop stopped at: at least one, and below a
      hundred unless the unit is the largest. */
  function UnitRatio(n: real, k: nat): (ratio: real)
    requires k < |Thresholds| && Thresholds[k] <= n
    requires 0 < k ==> n < Thresholds[k - 1]
    ensures ratio == n / Thresholds[k] && 1.0 <= ratio
    ensures 0 < k ==> ratio < 100.0
  {
    var t := Thresholds[k];
    UnitScale(k);
    assert 1.0 <= n / t by { DivMonotone(t, n, t); }
    assert 0 < k ==> n / t < 100.0 by {
      if 0 < k {
        DivStrictlyMonotone(n, 100.0 * t, t);
      }
    }
    n / t
  }

  /** What formatIndianCompact shows, short of the digits: '∞', the plain
      amount, or the ratio to a named unit. */
  datatype Compact =
    | Infinity
    | Plain(negative: bool, magnitude: real)
    | Scaled(negative: bool, ratio: real, unit: nat, name: string)

  /** What formatCurrencyOrInfinity shows, short of the digits. */
  datatype Shown = InfinitySign | Currency(amount: real)

  /** formatCurrencyOrInfinity: '∞' only for a value that is not finite. */
  function FormatCurrencyOrInfinity(x: Number): (s: Shown)
    ensures s.InfinitySign? <==> x.NonFinite?
    ensures s.Currency? ==> s.amount == x.value
  {
    match x
    case NonFinite => InfinitySign
    case Finite(v) => Currency(v)
  }

  /** Both formatters show '∞' on exactly the same values. */
  lemma InfinityAgrees(x: Number)
    ensures FormatCurrencyOrInfinity(x).InfinitySign? <==> FormatIndianCompact(x).Infinity?
  {
  }

  /** formatIndianCompact's choice of unit: the largest unit not above |x|,
      none below one thousand. */
  function FormatIndianCompact(x: Number): (c: Compact)
    ensures c.Infinity? <==> x.NonFinite?
    ensures c.Plain? <==> x.Finite? && Abs(x.value) < 1000.0
    ensures c.Plain? ==> c.magnitude == Abs(x.value) && c.negative == (x.value < 0.0)
    ensures c.Scaled? ==>
      && x.Finite?
      && c.negative == (x.value < 0.0)
      && c.unit < |Thresholds|
      && Thresholds[c.unit] <= Abs(x.value)
      && (forall j :: 0 <= j < c.unit ==> Abs(x.value) < Thresholds[j])
      && c.ratio == Abs(x.value) / Thresholds[c.unit]
      && 1.0 <= c.ratio
      && (0 < c.unit ==> c.ratio < 100.0)
      && c.name == UnitNames[c.unit]
  {
    match x
    case NonFinite => Infinity
    case Finite(v) =>
      var negative := v < 0.0;
      var n := Abs(v);
      match FirstUnitAtMost(n, 0)
      case None =>
        UnitScale(7);
        assert n < Thresholds[7];
        Plain(negative, n)
      case Some(k) =>
        UnitScale(k);
        assert 1000.0 <= n;
        var ratio := UnitRatio(n, k);
        var c := Scaled(negative, ratio, k, UnitNames[k]);
        c
  }

  /** Two and a half crore: 25,000,000 reaches the Crore threshold 1e7 but
      not Arab's 1e9, so it shows as 2.5 Crore. */
  lemma CroreExample()
    ensures FormatIndianCompact(Finite(25000000.0)) == Scaled(false, 2.5, 5, "Crore")
  {
    var c := FormatIndianCompact(Finite(25000000.0));
    assert Abs(25000000.0) == 25000000.0;
    assert forall j :: 0 <= j < 5 ==> Thresholds[j] > 25000000.0;
    assert 25000000.0 < Thresholds[4] && Thresholds[5] <= 25000000.0;
  }
}

=== FILE: gst.dfy ===
/** js/calculators/gst-calculator.js: adding GST to a base amount or
    extracting it from a gross amount, the Add/Remove toggle kept in the
    buttons' aria-pressed attributes, the rate preset buttons, and the input
    bounds. */
module GstCalculator {
  import opened Numeric
  import opened Formatters
  import opened Controls
  import opened Charts

  const AmountBounds: Bounds := Bounds(1.0, 5000000000.0)
  const RateBounds: Bounds := Bounds(0.0, 100.0)

  datatype Direction = Add | Remove

  datatype Breakdown = Breakdown(original: real, tax: real, net: real)

  /** The GST arithmetic of calculateGST. Add treats the amount as the base;
      Remove treats it as the gross and divides the base out. */
  function GstBreakdown(amount: real, rate: real, dir: Direction): (b: Breakdown)
    requires dir == Remove ==> 1.0 + rate / 100.0 != 0.0
    ensures b.net == b.original + b.tax
    ensures dir == Add ==> b.original == amount && b.tax == amount * (rate / 100.0)
    ensures dir == Remove ==> b.net == amount && b.original * (1.0 + rate / 100.0) == amount
    ensures 0.0 <= amount && 0.0 <= rate ==> 0.0 <= b.original && 0.0 <= b.tax && b.original <= b.net
  {
    match dir
    case Add =>
      var tax := amount * (rate / 100.0);
      assert 0.0 <= amount && 0.0 <= rate ==> 0.0 <= tax by {
        if 0.0 <= amount && 0.0 <= rate { MulMonotone(amount, 0.0, rate / 100.0); }
      }
      Breakdown(amount, tax, amount + tax)
    case Remove =>
      var original := amount / (1.0 + rate / 100.0);
      assert 0.0 <= amount && 0.0 <= rate ==> 0.0 <= original <= amount by {
        if 0.0 <= amount && 0.0 <= rate {
          DivMonotone(0.0, amount, 1.0 + rate / 100.0);
          MulMonotone(original, 1.0, 1.0 + rate / 100.0);
        }
      }
      Breakdown(original, amount - original, amount)
  }

  /** Removing GST from the gross that adding GST produced gives back the same
      breakdown: the base and the tax are recovered exactly. */
  lemma {:induction false} RemoveUndoesAdd(amount: real, rate: real)
    requires 1.0 + rate / 100.0 != 0.0
    ensures GstBreakdown(GstBreakdown(amount, rate, Add).net, rate, Remove) == GstBreakdown(amount, rate, Add)
  {
    var g := 1.0 + rate / 100.0;
    var added := GstBreakdown(amount, rate, Add);
    assert added.net == amount * g;
    var removed := GstBreakdown(added.net, rate, Remove);
    DivOfProduct(amount * g, g, amount);
  }

  /** And the other way round: adding GST to the base that removing GST
      extracted gives back the gross amount. */
  lemma {:induction false} AddUndoesRemove(gross: real, rate: real)
    requires 1.0 + rate / 100.0 != 0.0
    ensures GstBreakdown(GstBreakdown(gross, rate, Remove).original, rate, Add) == GstBreakdown(gross, rate, Remove)
  {
    var g := 1.0 + rate / 100.0;
    var removed := GstBreakdown(gross, rate, Remove);
    var added := GstBreakdown(removed.original, rate, Add);
    assert added.net == removed.original * g;
  }

  /** The aria-pressed attributes of the Add and Remove buttons (None when
      the attribute is absent). */
  datatype Toggle = Toggle(addPressed: Option<string>, removePressed: Option<string>)

  /** Exactly one of the two buttons is pressed. */
  predicate OnePressed(t: Toggle) {
    (t.addPressed == Some("true")) != (t.removePressed == Some("true"))
  }

  /** `isAddGST`: Add exactly when the Add button's aria-pressed is 'true'. */
  function DirectionOf(t: Toggle): (d: Direction)
    ensures d == Add <==> t.addPressed == Some("true")
  {
    if t.addPressed == Some("true") then Add else Remove
  }

  /** Clicking Add presses it and releases Remove. */
  function ClickAdd(t: Toggle): (t': Toggle)
    ensures OnePressed(t') && DirectionOf(t') == Add
  {
    Toggle(Some("true"), Some("false"))
  }

  /** Clicking Remove presses it and releases Add. */
  function ClickRemove(t: Toggle): (t': Toggle)
    ensures OnePressed(t') && DirectionOf(t') == Remove
  {
    Toggle(Some("false"), Some("true"))
  }

  datatype GstView = GstView(breakdown: Breakdown, chart: ChartData)

  /** calculateGST: read both fields (`parseFloat(...) || 0`), take the
      direction from the toggle, and chart the base against the tax. */
  function CalculateGst(amountField: Field, rateField: Field, toggle: Toggle): (v: GstView)
    requires DirectionOf(toggle) == Remove ==> 1.0 + OrZero(rateField) / 100.0 != 0.0
    ensures v.breakdown == GstBreakdown(OrZero(amountField), OrZero(rateField), DirectionOf(toggle))
    ensures v.chart.labels == [Total] && v.chart.kind == Bar
    ensures v.chart.investedSeries == [v.breakdown.original]
    ensures v.chart.returnsSeries == [Max(0.0, v.breakdown.tax)]
    ensures v.chart.pie == [v.breakdown.original, Max(0.0, v.breakdown.tax)]
  {
    var b := GstBreakdown(OrZero(amountField), OrZero(rateField), DirectionOf(toggle));
    GstView(b, TotalBar(b.original, b.tax))
  }

  /** The rate field and the recalculated view after a rate preset button. */
  datatype Preset = Preset(rateField: Field, view: GstView)

  /** A rate preset button: its data-rate (seen through parseFloat, as
      calculateGST reads it) goes into the rate field, and the view is
      recalculated with the amount and direction as they stand. */
  function RatePreset(amountField: Field, rate: Field, toggle: Toggle): (r: Preset)
    requires DirectionOf(toggle) == Remove ==> 1.0 + OrZero(rate) / 100.0 != 0.0
    ensures r.rateField == rate
    ensures r.view.breakdown == GstBreakdown(OrZero(amountField), OrZero(rate), DirectionOf(toggle))
    ensures DirectionOf(toggle) == Add ==> r.view.breakdown.tax == OrZero(amountField) * (OrZero(rate) / 100.0)
    ensures DirectionOf(toggle) == Remove ==> r.view.breakdown.net == OrZero(amountField)
  {
    Preset(rate, CalculateGst(amountField, rate, toggle))
  }

  /** A preset rate within the rate bounds is left alone by both rate
      handlers, and with a settled amount it gives a sane breakdown. */
  lemma PresetRateIsSettled(amountField: Field, rate: real, toggle: Toggle)
    requires RateBounds.lo <= rate <= RateBounds.hi
    requires InBoundsOrBlank(amountField, AmountBounds)
    ensures var r := RatePreset(amountField, Some(rate), toggle);
      && LiveInput(r.rateField, RateBounds) == r.rateField
      && FieldBlur(r.rateField, RateBounds) == r.rateField
      && 0.0 <= r.view.breakdown.original <= r.view.breakdown.net
      && 0.0 <= r.view.breakdown.tax
  {
  }

  /** Whatever the user types or leaves, the input handlers keep the amount
      and rate fields blank or in bounds, so the shown tax is never negative,
      the base never exceeds the gross, and the chart shows the tax as is. */
  lemma SettledInputsGiveSaneBreakdown(amountField: Field, rateField: Field, toggle: Toggle)
    requires InBoundsOrBlank(amountField, AmountBounds) && InBoundsOrBlank(rateField, RateBounds)
    ensures var v := CalculateGst(amountField, rateField, toggle);
      && 0.0 <= v.breakdown.original <= v.breakdown.net
      && 0.0 <= v.breakdown.tax
      && v.chart.returnsSeries == [v.breakdown.tax]
  {
  }

  /** The live handler and the blur handler of both fields settle them. */
  lemma HandlersSettleFields(amountField: Field, rateField: Field)
    ensures InBoundsOrBlank(LiveInput(amountField, AmountBounds), AmountBounds)
    ensures InBoundsOrBlank(LiveInput(rateField, RateBounds), RateBounds)
    ensures InBoundsOrBlank(FieldBlur(amountField, AmountBounds), AmountBounds)
    ensures InBoundsOrBlank(FieldBlur(rateField, RateBounds), RateBounds)
  {
  }
}

=== FILE: lumpsum.dfy ===
/** js/calculators/lumpsum-calculator.js: the future value of a one-time
    investment compounded yearly, its invested/returns split, the yearly
    series, and the input bounds. */
module LumpsumCalculator {
  import opened Numeric
  import opened Formatters
  import opened Controls
  import opened Charts

  const AmountBounds: Bounds := Bounds(1.0, 5000000000.0)
  const PeriodBounds: Bounds := Bounds(1.0, 100.0)
  const RateBounds: Bounds := Bounds(1.0, 100.0)

  /** `1 + rate/100`, the yearly growth factor. */
  function Growth(rate: real): (g: real)
    ensures 0.0 < rate <==> 1.0 < g
  {
    1.0 + rate / 100.0
  }

  /** The independent reference: the balance year by year, each year
      adding that year's interest to the balance. */
  function Balance(amount: real, rate: real, years: nat): real {
    if years == 0 then amount
    else
      var b := Balance(amount, rate, years - 1);
      b + b * (rate / 100.0)
  }

  datatype Summary = Summary(invested: real, gains: real, total: real)

  /** The three figures calculateLumpsum shows: `amount * (1 + rate/100)^period`. */
  function LumpsumSummary(amount: real, period: nat, rate: real): (s: Summary)
    ensures s.invested == amount
    ensures s.invested + s.gains == s.total
    ensures s.total == Balance(amount, rate, period)
  {
    var total := amount * Pow(Growth(rate), period);
    BalanceIsCompounded(amount, rate, period);
    Summary(amount, total - amount, total)
  }

  /** Compounding in closed form equals adding the interest year by year. */
  lemma {:induction false} BalanceIsCompounded(amount: real, rate: real, years: nat)
    ensures amount * Pow(Growth(rate), years) == Balance(amount, rate, years)
  {
    if years > 0 {
      BalanceIsCompounded(amount, rate, years - 1);
      var p := Pow(Growth(rate), years - 1);
      var b := Balance(amount, rate, years - 1);
      assert amount * (Growth(rate) * p) == (amount * p) * Growth(rate);
      assert b * Growth(rate) == b + b * (rate / 100.0);
    }
  }

  /** With a positive rate the total strictly grows with every extra year,
      and at zero rate the money does not move. */
  lemma LumpsumGrowth(amount: real, rate: real, m: nat, n: nat)
    requires 0.0 < amount && m < n
    ensures 0.0 < rate ==> LumpsumSummary(amount, m, rate).gains < LumpsumSummary(amount, n, rate).gains
    ensures rate == 0.0 ==> LumpsumSummary(amount, n, rate).gains == 0.0
  {
    if 0.0 < rate {
      GainsIncrease(amount, rate, m, n);
    } else if rate == 0.0 {
      PowOfOne(n);
    }
  }

  /** The gains order like the year-by-year balances they are taken from. */
  lemma GainsIncrease(amount: real, rate: real, m: nat, n: nat)
    requires 0.0 < amount && 0.0 < rate && m < n
    ensures LumpsumSummary(amount, m, rate).gains < LumpsumSummary(amount, n, rate).gains
  {
    BalanceGrows(amount, rate, m, n);
  }

  /** With a positive amount and rate the balance stays positive and grows
      strictly from year to year. */
  lemma {:induction false} BalanceGrows(amount: real, rate: real, m: nat, n: nat)
    requires 0.0 < amount && 0.0 < rate && m < n
    ensures 0.0 < Balance(amount, rate, m) < Balance(amount, rate, n)
    decreases n
  {
    if m < n - 1 {
      BalanceGrows(amount, rate, m, n - 1);
    } else if 0 < m {
      BalanceGrows(amount, rate, 0, m);
    }
    MulPositive(Balance(amount, rate, n - 1), rate / 100.0);
  }

  lemma {:induction false} PowOfOne(n: nat)
    ensures Pow(1.0, n) == 1.0
  {
    if n > 0 {
      PowOfOne(n - 1);
    }
  }

  datatype LumpsumView = LumpsumView(summary: Summary, chart: ChartData)

  /** calculateLumpsum: nothing when a field reads as zero or less;
      otherwise the summary and one chart point per year: the invested amount
      stays flat while the returns grow strictly year on year and end at the
      summary's returns. */
  method CalculateLumpsum(amount: real, period: nat, rate: real) returns (view: Option<LumpsumView>)
    ensures view.Some? <==> 0.0 < amount && 1 <= period && 0.0 < rate
    ensures view.Some? ==>
      && view.value.summary == LumpsumSummary(amount, period, rate)
      && 0.0 < view.value.summary.gains
      && view.value.chart.kind == Line
      && view.value.chart.pie == [amount, view.value.summary.gains]
      && |view.value.chart.labels| == |view.value.chart.investedSeries| == |view.value.chart.returnsSeries| == period
      && (forall i :: 0 <= i < period ==> view.value.chart.labels[i] == Year(i + 1))
      && (forall i :: 0 <= i < period ==> view.value.chart.investedSeries[i] == amount)
      && (forall i :: 0 <= i < period ==> view.value.chart.returnsSeries[i] == LumpsumSummary(amount, i + 1, rate).gains)
      && (forall i :: 0 <= i < period ==> 0.0 < view.value.chart.returnsSeries[i])
      && (forall i, j :: 0 <= i < j < period ==> view.value.chart.returnsSeries[i] < view.value.chart.returnsSeries[j])
      && view.value.chart.returnsSeries[period - 1] == view.value.summary.gains
  {
    if amount <= 0.0 || period < 1 || rate <= 0.0 {
      return None;
    }
    var summary := LumpsumSummary(amount, period, rate);
    LumpsumGrowth(amount, rate, 0, period);
    var labels: seq<Label> := [];
    var investedSeries: seq<real> := [];
    var returnsSeries: seq<real> := [];
    var y := 1;
    while y <= period
      invariant 1 <= y <= period + 1
      invariant |labels| == |investedSeries| == |returnsSeries| == y - 1
      invariant forall i :: 0 <= i < y - 1 ==> labels[i] == Year(i + 1)
      invariant forall i :: 0 <= i < y - 1 ==> investedSeries[i] == amount
      invariant forall i :: 0 <= i < y - 1 ==> returnsSeries[i] == LumpsumSummary(amount, i + 1, rate).gains
      invariant forall i :: 0 <= i < y - 1 ==> 0.0 < returnsSeries[i]
      invariant forall i, j :: 0 <= i < j < y - 1 ==> returnsSeries[i] < returnsSeries[j]
    {
      var value := amount * Pow(Growth(rate), y);
      var point := LumpsumSummary(amount, y, rate);
      LumpsumGrowth(amount, rate, 0, y);
      forall i | 0 <= i < y - 1
        ensures returnsSeries[i] < point.gains
      {
        LumpsumGrowth(amount, rate, i + 1, y);
      }
      labels := labels + [Year(y)];
      investedSeries := investedSeries + [amount];
      returnsSeries := returnsSeries + [Max(0.0, value - amount)];
      y := y + 1;
    }
    var chart := ChartData(labels, investedSeries, returnsSeries, [amount, Max(0.0, summary.gains)], Line);
    view := Some(LumpsumView(summary, chart));
  }

  /** The input and blur handlers of the three fields settle them: a field
      is left blank (still being typed) or within its bounds, the number
      sliders follow a parsed field, and a blur always leaves a number
      within the bounds. */
  lemma HandlersSettleFields(amountField: Field, periodField: Field, rateField: Field, sliderMin: real, ln: RealLog)
    requires LogPositiveAboveOne(ln)
    ensures InBoundsOrBlank(AmountFieldInput(amountField, AmountBounds, ln).field, AmountBounds)
    ensures InBoundsOrBlank(NumberFieldInput(periodField, PeriodBounds, sliderMin).field, PeriodBounds)
    ensures InBoundsOrBlank(NumberFieldInput(rateField, RateBounds, sliderMin).field, RateBounds)
    ensures periodField.Some? ==> NumberFieldInput(periodField, PeriodBounds, sliderMin).slider == NumberFieldInput(periodField, PeriodBounds, sliderMin).field
    ensures rateField.Some? ==> NumberFieldInput(rateField, RateBounds, sliderMin).slider == NumberFieldInput(rateField, RateBounds, sliderMin).field
    ensures InBoundsOrBlank(FieldBlur(amountField, AmountBounds), AmountBounds) && FieldBlur(amountField, AmountBounds).Some?
    ensures InBoundsOrBlank(FieldBlur(periodField, PeriodBounds), PeriodBounds) && FieldBlur(periodField, PeriodBounds).Some?
    ensures InBoundsOrBlank(FieldBlur(rateField, RateBounds), RateBounds) && FieldBlur(rateField, RateBounds).Some?
  {
  }
}

=== FILE: numeric.dfy ===
/** Exact-real stand-ins for the JavaScript number operations the calculators
    use: Math.max, Math.min and Math.round, and Math.pow with a whole-number
    exponent. Every quantity of the model is an exact `real`. */
module Numeric {

  /** A value that may be absent: `null`, `NaN` from parseFloat, an
      unparseable field. */
  datatype Option<+T> = None | Some(value: T) {

    /** `x ?? default` */
    function GetOr(default: T): T {
      match this
      case Some(v) => v
      case None => default
    }
  }

  /** Math.max on two reals. */
  function Max(a: real, b: real): (r: real)
    ensures a <= r && b <= r
    ensures r == a || r == b
  {
    if a < b then b else a
  }

  /** Math.min on two reals. */
  function Min(a: real, b: real): (r: real)
    ensures r <= a && r <= b
    ensures r == a || r == b
  {
    if a < b then a else b
  }

  function MaxInt(a: int, b: int): (r: int)
    ensures a <= r && b <= r
    ensures r == a || r == b
  {
    if a < b then b else a
  }

  function MinInt(a: int, b: int): (r: int)
    ensures r <= a && r <= b
    ensures r == a || r == b
  {
    if a < b then a else b
  }

  function Abs(x: real): (r: real)
    ensures 0.0 <= r && (r == x || r == -x)
  {
    if x < 0.0 then -x else x
  }

  /** Math.round: the integer nearest to x, a half rounding towards +infinity. */
  function Round(x: real): (k: int)
    ensures x - 0.5 < k as real <= x + 0.5
  {
    (x + 0.5).Floor
  }

  /** A real with no fractional part. */
  predicate IsWhole(x: real) {
    x.Floor as real == x
  }

  /** Multiplying by a non-negative factor keeps an inequality. */
  lemma MulMonotone(c: real, x: real, y: real)
    requires 0.0 <= c && x <= y
    ensures c * x <= c * y
  {
    assert c * y - c * x == c * (y - x);
  }

  /** Multiplying by a positive factor keeps a strict inequality. */
  lemma MulStrictlyMonotone(c: real, x: real, y: real)
    requires 0.0 < c && x < y
    ensures c * x < c * y
  {
    assert c * y - c * x == c * (y - x);
  }

  lemma MulPositive(a: real, b: real)
    requires 0.0 < a && 0.0 < b
    ensures 0.0 < a * b
  {
    MulStrictlyMonotone(a, 0.0, b);
  }

  /** A non-zero factor cancels from both sides of an equation. */
  lemma MulCancel(c: real, x: real, y: real)
    requires c != 0.0 && c * x == c * y
    ensures x == y
  {
    assert c * (x - y) == 0.0;
  }

  /** Math.pow(b, n) for a whole-number exponent. */
  function Pow(b: real, n: nat): real {
    if n == 0 then 1.0 else b * Pow(b, n - 1)
  }

  lemma {:induction false} PowPositive(b: real, n: nat)
    requires 0.0 < b
    ensures 0.0 < Pow(b, n)
  {
    if n > 0 {
      PowPositive(b, n - 1);
    }
  }

  /** Bernoulli's inequality: compounding n times at rate r gains at least
      n simple-interest steps. */
  lemma {:induction false} Bernoulli(r: real, n: nat)
    requires 0.0 <= r
    ensures 1.0 + n as real * r <= Pow(1.0 + r, n)
  {
    if n > 0 {
      Bernoulli(r, n - 1);
      var p := Pow(1.0 + r, n - 1);
      assert 1.0 + (n - 1) as real * r <= p;
      var k := (n - 1) as real;
      assert n as real == k + 1.0;
      MulMonotone(1.0 + r, 1.0 + k * r, p);
      MulMonotone(k, 0.0, r);
      MulMonotone(r, 0.0, k * r);
      assert (1.0 + r) * (1.0 + k * r) == 1.0 + (k + 1.0) * r + r * (k * r);
      assert Pow(1.0 + r, n) == (1.0 + r) * p;
      assert 1.0 + (k + 1.0) * r <= Pow(1.0 + r, n);
      assert 1.0 + n as real * r == 1.0 + (k + 1.0) * r;
    }
  }

  /** A base above one makes the power strictly increasing in the exponent. */
  lemma {:induction false} PowStrictlyIncreasing(b: real, m: nat, n: nat)
    requires 1.0 < b && m < n
    ensures Pow(b, m) < Pow(b, n)
  {
    PowPositive(b, n - 1);
    if m < n - 1 {
      PowStrictlyIncreasing(b, m, n - 1);
    }
    MulStrictlyMonotone(Pow(b, n - 1), 1.0, b);
    assert Pow(b, n) == b * Pow(b, n - 1);
  }

  lemma PowAboveOne(b: real, n: nat)
    requires 1.0 < b && 1 <= n
    ensures 1.0 < Pow(b, n)
  {
    PowStrictlyIncreasing(b, 0, n);
  }
}

=== FILE: sip.dfy ===
/** js/calculators/sip-calculator.js: the future value of a monthly
    systematic investment plan, its invested/returns split, the yearly
    series charted over the period, and the input bounds. */
module SipCalculator {
  import opened Numeric
  import opened Formatters
  import opened Controls
  import opened Charts

  const AmountBounds: Bounds := Bounds(1.0, 500000000.0)
  const PeriodBounds: Bounds := Bounds(1.0, 100.0)
  const RateBounds: Bounds := Bounds(1.0, 100.0)

  /** An annual percentage rate as a monthly fraction. */
  function MonthlyRate(rate: real): (r: real)
    ensures 0.0 < rate <==> 0.0 < r
    ensures r * 1200.0 == rate
  {
    rate / 100.0 / 12.0
  }

  /** The closed form the source uses: an annuity-due of `months` deposits of
      `amount` at monthly rate r. */
  function FutureValue(amount: real, r: real, months: nat): real
    requires r != 0.0
  {
    amount * (((Pow(1.0 + r, months) - 1.0) / r) * (1.0 + r))
  }

  /** The independent reference: month by month, deposit `amount` at the
      start of the month, then let the whole balance earn a month's interest. */
  function ContributionValue(amount: real, r: real, months: nat): real {
    if months == 0 then 0.0 else (ContributionValue(amount, r, months - 1) + amount) * (1.0 + r)
  }

  /** The closed form agrees with the month-by-month balance for every number
      of months. */
  lemma {:induction false} FutureValueIsContributionValue(amount: real, r: real, months: nat)
    requires r != 0.0
    ensures FutureValue(amount, r, months) == ContributionValue(amount, r, months)
  {
    if months == 0 {
      assert Pow(1.0 + r, 0) - 1.0 == 0.0;
    } else {
      FutureValueIsContributionValue(amount, r, months - 1);
      var p := Pow(1.0 + r, months - 1);
      assert ContributionValue(amount, r, months)
          == (amount * (((p - 1.0) / r) * (1.0 + r)) + amount) * (1.0 + r);
      assert Pow(1.0 + r, months) == (1.0 + r) * p;
      AnnuityStep(amount, r, p);
    }
  }

  /** One month of the annuity-due in closed form: depositing `amount` on top
      of the value for p = (1+r)^(m-1) and compounding gives the value for
      (1+r)^m. */
  lemma AnnuityStep(amount: real, r: real, p: real)
    requires r != 0.0
    ensures (amount * (((p - 1.0) / r) * (1.0 + r)) + amount) * (1.0 + r)
         == amount * (((((1.0 + r) * p) - 1.0) / r) * (1.0 + r))
  {
    var q := (1.0 + r) * p;
    var e := (p - 1.0) / r;
    var d := (q - 1.0) / r;
    assert r * e == p - 1.0;
    assert r * d == q - 1.0;
    assert r * (e * (1.0 + r) + 1.0) == (r * e) * (1.0 + r) + r;
    assert (p - 1.0) * (1.0 + r) + r == q - 1.0;
    MulCancel(r, e * (1.0 + r) + 1.0, d);
    assert amount * (e * (1.0 + r)) + amount == amount * d;
  }

  /** With a positive rate every deposit grows, so the balance after any
      positive number of months exceeds what was paid in. */
  lemma {:induction false} ContributionValueExceedsDeposits(amount: real, r: real, months: nat)
    requires 0.0 < amount && 0.0 < r && 1 <= months
    ensures amount * months as real < ContributionValue(amount, r, months)
  {
    var k := (months - 1) as real;
    var prev := ContributionValue(amount, r, months - 1);
    if months == 1 {
      assert prev == 0.0;
    } else {
      ContributionValueExceedsDeposits(amount, r, months - 1);
    }
    assert amount * k <= prev;
    var base := prev + amount;
    assert amount * months as real <= base by {
      assert amount * months as real == amount * k + amount;
    }
    assert 0.0 < base by {
      MulMonotone(amount, 0.0, k);
    }
    MulStrictlyMonotone(base, 1.0, 1.0 + r);
  }

  datatype Summary = Summary(invested: real, gains: real, total: real)

  /** The three figures calculateSIP shows for `period` whole years. */
  function SipSummary(amount: real, period: nat, rate: real): (s: Summary)
    requires 0.0 < rate
    ensures s.invested == amount * (period * 12) as real
    ensures s.total == ContributionValue(amount, MonthlyRate(rate), period * 12)
    ensures s.invested + s.gains == s.total
    ensures 0.0 < amount && 1 <= period ==> s.invested < s.total && 0.0 < s.gains
  {
    var r := MonthlyRate(rate);
    var months := period * 12;
    var fv := FutureValue(amount, r, months);
    FutureValueIsContributionValue(amount, r, months);
    assert 0.0 < amount && 1 <= period ==> amount * months as real < ContributionValue(amount, r, months) by {
      if 0.0 < amount && 1 <= period {
        ContributionValueExceedsDeposits(amount, r, months);
      }
    }
    Summary(amount * months as real, fv - amount * months as real, fv)
  }

  /** One iteration of calculateSIP's chart loop: the value and the amount
      invested after y years, which are the y-year summary's figures. */
  method YearValues(amount: real, rate: real, y: nat) returns (value: real, invested: real)
    requires 0.0 < amount && 0.0 < rate && 1 <= y
    ensures invested == SipSummary(amount, y, rate).invested
    ensures value == SipSummary(amount, y, rate).total
    ensures invested < value
  {
    var m := y * 12;
    var r := MonthlyRate(rate);
    value := FutureValue(amount, r, m);
    invested := amount * m as real;
    FutureValueIsContributionValue(amount, r, m);
  }

  datatype SipView = SipView(summary: Summary, chart: ChartData)

  /** One point of the yearly growth chart. */
  predicate YearPoint(c: ChartData, i: nat, amount: real, rate: real)
    requires 0.0 < rate
    requires i < |c.labels| && i < |c.investedSeries| && i < |c.returnsSeries|
  {
    && c.labels[i] == Year(i + 1)
    && c.investedSeries[i] == SipSummary(amount, i + 1, rate).invested
    && c.returnsSeries[i] == SipSummary(amount, i + 1, rate).gains
  }

  /** calculateSIP: nothing when a field reads as zero or less; otherwise the
      summary and one chart point per year, where year y's point is the
      summary of a y-year plan and the last point is the summary itself. */
  method CalculateSip(amount: real, period: nat, rate: real) returns (view: Option<SipView>)
    ensures view.Some? <==> 0.0 < amount && 1 <= period && 0.0 < rate
    ensures view.Some? ==>
      && view.value.summary == SipSummary(amount, period, rate)
      && 0.0 < view.value.summary.gains
      && view.value.chart.kind == Line
      && view.value.chart.pie == [view.value.summary.invested, view.value.summary.gains]
      && |view.value.chart.labels| == |view.value.chart.investedSeries| == |view.value.chart.returnsSeries| == period
      && (forall i :: 0 <= i < period ==> YearPoint(view.value.chart, i, amount, rate))
      && (forall i :: 0 <= i < period ==> 0.0 < view.value.chart.returnsSeries[i])
      && view.value.chart.investedSeries[period - 1] == view.value.summary.invested
      && view.value.chart.returnsSeries[period - 1] == view.value.summary.gains
  {
    if amount <= 0.0 || period < 1 || rate <= 0.0 {
      return None;
    }
    var summary := SipSummary(amount, period, rate);
    var labels: seq<Label> := [];
    var investedSeries: seq<real> := [];
    var returnsSeries: seq<real> := [];
    var y := 1;
    while y <= period
      invariant 1 <= y <= period + 1
      invariant |labels| == |investedSeries| == |returnsSeries| == y - 1
      invariant forall i :: 0 <= i < y - 1 ==> labels[i] == Year(i + 1)
      invariant forall i :: 0 <= i < y - 1 ==> investedSeries[i] == SipSummary(amount, i + 1, rate).invested
      invariant forall i :: 0 <= i < y - 1 ==> returnsSeries[i] == SipSummary(amount, i + 1, rate).gains
      invariant forall i :: 0 <= i < y - 1 ==> 0.0 < returnsSeries[i]
    {
      var value, invested := YearValues(amount, rate, y);
      labels := labels + [Year(y)];
      investedSeries := investedSeries + [invested];
      returnsSeries := returnsSeries + [Max(0.0, value - invested)];
      y := y + 1;
    }
    var chart := ChartData(labels, investedSeries, returnsSeries, [summary.invested, Max(0.0, summary.gains)], Line);
    view := Some(SipView(summary, chart));
  }

  /** The input and blur handlers of the three fields settle them: a field
      is left blank (still being typed) or within its bounds, the number
      sliders follow a parsed field, and a blur always leaves a number
      within the bounds. */
  lemma HandlersSettleFields(amountField: Field, periodField: Field, rateField: Field, sliderMin: real, ln: RealLog)
    requires LogPositiveAboveOne(ln)
    ensures InBoundsOrBlank(AmountFieldInput(amountField, AmountBounds, ln).field, AmountBounds)
    ensures InBoundsOrBlank(NumberFieldInput(periodField, PeriodBounds, sliderMin).field, PeriodBounds)
    ensures InBoundsOrBlank(NumberFieldInput(rateField, RateBounds, sliderMin).field, RateBounds)
    ensures periodField.Some? ==> NumberFieldInput(periodField, PeriodBounds, sliderMin).slider == NumberFieldInput(periodField, PeriodBounds, sliderMin).field
    ensures rateField.Some? ==> NumberFieldInput(rateField, RateBounds, sliderMin).slider == NumberFieldInput(rateField, RateBounds, sliderMin).field
    ensures InBoundsOrBlank(FieldBlur(amountField, AmountBounds), AmountBounds) && FieldBlur(amountField, AmountBounds).Some?
    ensures InBoundsOrBlank(FieldBlur(periodField, PeriodBounds), PeriodBounds) && FieldBlur(periodField, PeriodBounds).Some?
    ensures InBoundsOrBlank(FieldBlur(rateField, RateBounds), RateBounds) && FieldBlur(rateField, RateBounds).Some?
  {
  }
}

=== FILE: text_editor.dfy ===
/** The text editor of js/editorCalc.js (setupEditor): stripping markup from
    the saved text when it is loaded, CRLF-to-LF normalisation on save and
    download, and the clear action. localStorage is modelled as the stored
    string it holds (None when the key is absent). */
module TextEditor {
  import opened Numeric

  /** A JavaScript value handed to stripTags: a string or anything else. */
  datatype JsValue = Str(s: string) | NotString

  /** No '<' occurs anywhere before a '>': the text holds no `<...>` run. */
  predicate NoTagPair(s: string) {
    forall i, j :: 0 <= i < j < |s| && s[i] == '<' ==> s[j] != '>'
  }

  /** The position of the first occurrence of c in s. */
  function FirstIndex(s: string, c: char): (k: nat)
    requires c in s
    ensures k < |s| && s[k] == c
    ensures forall j :: 0 <= j < k ==> s[j] != c
  {
    if s[0] == c then 0 else 1 + FirstIndex(s[1..], c)
  }

  /** `s.replace(/<[^>]*>/g, '')`: scanning left to right, a '<' that has a
      '>' somewhere after it starts a match running to the first such '>',
      and the match is deleted; every other character is kept. */
  function StripTags(s: string): (r: string)
    ensures |r| <= |s|
    decreases |s|
  {
    if |s| == 0 then ""
    else if s[0] == '<' && '>' in s[1..] then StripTags(s[1..][FirstIndex(s[1..], '>') + 1..])
    else [s[0]] + StripTags(s[1..])
  }

  /** stripTags on any value: a string loses its tags, anything else gives ''. */
  function StripTagsValue(v: JsValue): (r: string)
    ensures v.NotString? ==> r == ""
    ensures v.Str? ==> NoTagPair(r) && (NoTagPair(v.s) ==> r == v.s)
  {
    match v
    case NotString => ""
    case Str(s) =>
      StripTagsLeavesNoTag(s);
      assert NoTagPair(s) ==> StripTags(s) == s by {
        if NoTagPair(s) { StripTagsKeepsPlainText(s); }
      }
      StripTags(s)
  }

  /** Stripping only deletes: every character of the result is in the input. */
  lemma {:induction false} StripTagsDeletesOnly(s: string)
    ensures forall c :: c in StripTags(s) ==> c in s
    decreases |s|
  {
    if |s| > 0 {
      if s[0] == '<' && '>' in s[1..] {
        var k := FirstIndex(s[1..], '>') + 2;
        assert s[1..][k - 1..] == s[k..];
        StripTagsDeletesOnly(s[k..]);
        SuffixCharsOccur(s, k);
      } else {
        StripTagsDeletesOnly(s[1..]);
      }
    }
  }

  /** Every character of a suffix occurs in the whole text. */
  lemma SuffixCharsOccur(s: string, k: nat)
    requires k <= |s|
    ensures forall c :: c in s[k..] ==> c in s
  {
    forall c | c in s[k..] ensures c in s {
      var i :| 0 <= i < |s[k..]| && s[k..][i] == c;
      assert s[k + i] == c;
    }
  }

  /** Nothing tag-like survives: the result has no '<' before a '>'. */
  lemma {:induction false} StripTagsLeavesNoTag(s: string)
    ensures NoTagPair(StripTags(s))
    decreases |s|
  {
    if |s| > 0 {
      if s[0] == '<' && '>' in s[1..] {
        StripTagsLeavesNoTag(s[1..][FirstIndex(s[1..], '>') + 1..]);
      } else {
        var tail := StripTags(s[1..]);
        StripTagsLeavesNoTag(s[1..]);
        if s[0] == '<' {
          StripTagsDeletesOnly(s[1..]);
          assert '>' !in tail;
        }
        var r := [s[0]] + tail;
        forall i, j | 0 <= i < j < |r| && r[i] == '<'
          ensures r[j] != '>'
        {
          if i == 0 {
            assert r[j] == tail[j - 1];
          } else {
            assert r[i] == tail[i - 1] && r[j] == tail[j - 1];
          }
        }
      }
    }
  }

  /** Text without a `<...>` run comes through unchanged. */
  lemma {:induction false} StripTagsKeepsPlainText(s: string)
    requires NoTagPair(s)
    ensures StripTags(s) == s
    decreases |s|
  {
    if |s| > 0 {
      if s[0] == '<' {
        assert '>' !in s[1..] by {
          forall k | 0 <= k < |s[1..]| ensures s[1..][k] != '>' {
            assert s[1..][k] == s[k + 1];
          }
        }
      }
      assert NoTagPair(s[1..]) by {
        forall i, j | 0 <= i < j < |s[1..]| && s[1..][i] == '<'
          ensures s[1..][j] != '>'
        {
          assert s[1..][i] == s[i + 1] && s[1..][j] == s[j + 1];
        }
      }
      StripTagsKeepsPlainText(s[1..]);
      assert s == [s[0]] + s[1..];
    }
  }

  /** Text before the first '<' survives stripping unchanged and in place. */
  lemma {:induction false} StripTagsKeepsPrefix(p: string, q: string)
    requires '<' !in p
    ensures StripTags(p + q) == p + StripTags(q)
  {
    if |p| > 0 {
      assert (p + q)[0] == p[0];
      assert (p + q)[1..] == p[1..] + q;
      assert '<' !in p[1..];
      StripTagsKeepsPrefix(p[1..], q);
      assert p == [p[0]] + p[1..];
    } else {
      assert p + q == q;
    }
  }

  /** A `<...>` run at the front is deleted whole, up to and including the
      first '>', and the rest is stripped on its own. */
  lemma StripTagsDropsLeadingTag(t: string, q: string)
    requires '>' !in t
    ensures StripTags("<" + t + ">" + q) == StripTags(q)
  {
    var s := "<" + t + ">" + q;
    var rest := s[1..];
    assert rest == t + ">" + q;
    assert rest[|t|] == '>';
    var k := FirstIndex(rest, '>');
    assert k == |t|;
    assert rest[k + 1..] == q;
  }

  /** Stripping changes the text exactly when it holds a `<...>` run, so a
      second strip changes nothing. */
  lemma StripTagsFixedPoints(s: string)
    ensures StripTags(s) == s <==> NoTagPair(s)
    ensures StripTags(StripTags(s)) == StripTags(s)
  {
    StripTagsLeavesNoTag(s);
    if NoTagPair(s) {
      StripTagsKeepsPlainText(s);
    }
    StripTagsKeepsPlainText(StripTags(s));
  }

  /** `text.replace(/\r\n/g, '\n')`: each CR LF pair found scanning left to
      right becomes a single LF. */
  function NormalizeNewlines(s: string): (r: string)
    ensures |r| <= |s|
  {
    if |s| < 2 then s
    else if s[0] == '\r' && s[1] == '\n' then "\n" + NormalizeNewlines(s[2..])
    else [s[0]] + NormalizeNewlines(s[1..])
  }

  /** The reference inverse: every LF written as CR LF. */
  function ToCrlf(t: string): (r: string)
    ensures |r| > 0 ==> r[0] != '\n'
  {
    if |t| == 0 then ""
    else if t[0] == '\n' then "\r\n" + ToCrlf(t[1..])
    else [t[0]] + ToCrlf(t[1..])
  }

  /** Normalising undoes writing line breaks as CR LF, for every text. */
  lemma {:induction false} NormalizeUndoesCrlf(t: string)
    ensures NormalizeNewlines(ToCrlf(t)) == t
  {
    if |t| > 0 {
      NormalizeUndoesCrlf(t[1..]);
      var rest := ToCrlf(t[1..]);
      if t[0] == '\n' {
        assert ToCrlf(t)[2..] == rest;
      } else {
        assert ToCrlf(t) == [t[0]] + rest;
        if |rest| > 0 {
          assert ToCrlf(t)[1..] == rest;
        }
        assert t == [t[0]] + t[1..];
      }
    }
  }

  /** Text with no CR is left as it is. */
  lemma {:induction false} NormalizeKeepsCrFreeText(s: string)
    requires '\r' !in s
    ensures NormalizeNewlines(s) == s
  {
    if |s| >= 2 {
      assert s[1..][0] == s[1];
      assert '\r' !in s[1..];
      NormalizeKeepsCrFreeText(s[1..]);
      assert s == [s[0]] + s[1..];
    }
  }

  /** The scan is a single pass: a CR left in front of a freshly joined pair
      survives, so normalising twice can differ from normalising once. */
  lemma NormalizeIsSinglePass()
    ensures NormalizeNewlines("\r\r\n") == "\r\n"
    ensures NormalizeNewlines(NormalizeNewlines("\r\r\n")) == "\n"
  {
    assert NormalizeNewlines("\r\r\n") == "\r" + NormalizeNewlines("\r\n");
    assert NormalizeNewlines("\r\n") == "\n" + NormalizeNewlines("");
  }

  datatype Editor = Editor(value: string, stored: Option<string>)

  /** On setup: a stored text (the key exists) replaces the editor content
      with its tags stripped; otherwise the content stays. */
  function Load(e: Editor): (e': Editor)
    ensures e'.stored == e.stored
    ensures e.stored.None? ==> e'.value == e.value
    ensures e.stored.Some? ==> NoTagPair(e'.value) && |e'.value| <= |e.stored.value|
    ensures e.stored.Some? ==> e'.value == StripTags(e.stored.value)
  {
    match e.stored
    case None => e
    case Some(saved) => e.(value := StripTagsValue(Str(saved)))
  }

  /** save(): store the content with CR LF normalised to LF. */
  function Save(e: Editor): (e': Editor)
    ensures e'.value == e.value && e'.stored.Some?
    ensures '\r' !in e.value ==> e'.stored == Some(e.value)
    ensures forall u :: e.value == ToCrlf(u) ==> e'.stored == Some(u)
  {
    assert '\r' !in e.value ==> NormalizeNewlines(e.value) == e.value by {
      if '\r' !in e.value { NormalizeKeepsCrFreeText(e.value); }
    }
    assert forall u :: e.value == ToCrlf(u) ==> NormalizeNewlines(e.value) == u by {
      forall u | e.value == ToCrlf(u) ensures NormalizeNewlines(e.value) == u {
        NormalizeUndoesCrlf(u);
      }
    }
    e.(stored := Some(NormalizeNewlines(e.value)))
  }

  /** The 'clear' toolbar action: empty the editor and store the empty text. */
  function Clear(e: Editor): (e': Editor)
    ensures e'.value == [] && e'.stored == Some([])
    ensures Load(e') == e'
  {
    Editor("", Some(""))
  }

  /** The text offered for download: the content with CR LF normalised. */
  function DownloadText(e: Editor): (t: string)
    ensures forall u :: e.value == ToCrlf(u) ==> t == u
    ensures '\r' !in e.value ==> t == e.value
  {
    assert '\r' !in e.value ==> NormalizeNewlines(e.value) == e.value by {
      if '\r' !in e.value { NormalizeKeepsCrFreeText(e.value); }
    }
    assert forall u :: e.value == ToCrlf(u) ==> NormalizeNewlines(e.value) == u by {
      forall u | e.value == ToCrlf(u) ensures NormalizeNewlines(e.value) == u {
        NormalizeUndoesCrlf(u);
      }
    }
    NormalizeNewlines(e.value)
  }

  /** A save followed by a reload shows the normalised content exactly when
      it holds no `<...>` run; otherwise the reload strips the markup. */
  lemma SaveLoadRoundTrip(e: Editor)
    ensures Load(Save(e)).value == NormalizeNewlines(e.value) <==> NoTagPair(NormalizeNewlines(e.value))
    ensures Load(Save(e)).value == DownloadText(e) <==> NoTagPair(DownloadText(e))
  {
    StripTagsFixedPoints(NormalizeNewlines(e.value));
  }
}
